=== FILE: README.md ===
# user-guide assistant: a Dafny model of its core

The user-guide application embeds a chat assistant in a web UI. The user
types a question. The browser takes a snapshot of the page (route, title,
table columns, form labels, buttons) and posts both to a small server. The
server flattens the snapshot into a summary string and wraps it with the
question into a prompt for a language model. The reply comes back as free
text, or sometimes as JSON. The browser turns it into a list of steps
("click X", "fill Y"). It can then play those steps as a two-phase guided
tour: first the first click, then, after the route changes, everything else.

This project models that core as pure functions over immutable datatypes and
proves properties of it:

| module | file | models |
|---|---|---|
| `Options`, `Seqs` | options.dfy, seqs.dfy | `Option`; the `map`+`filter(Boolean)` pipelines (`FilterMap`) and `find`/`findIndex` (`FirstIndex`), each with its specification |
| `Text` | text.dfy | JavaScript `trim` (its exact whitespace set), ASCII `toLowerCase`, `includes`, `split` on one character, `join`, decimal rendering of a number |
| `Quotes` | quotes.dfy | the regular expression `/"([^"]+)"/` as a plain leftmost-match search |
| `StepParser` | steps.dfy | `parsePlainTextSteps`, plus an independent reference definition (sentences → intents → numbered steps) |
| `Page` | page.dfy | the page as a path plus elements in document order; `extractUIMetadata`, `findButtonByText`, `findFieldByLabel` |
| `Tour` | tour.dfy | the tour state `{joySteps, run, pending}`; `startVisualDemo`, the route-change effect and the tour library's callback as transitions |
| `Chat` | chat.dfy | the message log and reply interpretation of `sendMessage`, and when the "Show Visual Demo" button is offered |
| `Prompt` | prompt.dfy | the summary and prompt built by the server's `/assistant/message` handler |

Foreign parts become parameters. The browser DOM is a `Page` value. The
server's response is a `Reply` value (a failure, or a body). `JSON.parse` is
a function parameter `parse: string -> Option<Json>`, where `None` means it
threw.

The model follows the code as written; in particular:
- the tour's "finished"/"skipped" signal only stops the tour; it does not
  start the deferred phase, which only a route change does;
- the button list in the snapshot has no exclusion list, so the assistant's
  own buttons are included;
- target lookup matches button texts and label texts only, not links or
  aria-labels;
- `findFieldByLabel` returns the label element itself, not the input it
  labels;
- `findFieldByLabel` does not trim its query (only `findButtonByText` does).

## Model

| member | source | states |
|---|---|---|
| StepParser.ActionOf | ai-guide/src/chatbot.jsx:258-265 | an `action` string reads as a click exactly when it is "click" and as a fill exactly when it is "fill"; any other string is kept as it is |
| StepParser.ActionRoundTrip | ai-guide/src/chatbot.jsx:231-265 | reading an action string and writing it back are inverse both ways for well-formed actions, and every action read from a string is well formed (an other-action never stands for "click" or "fill") |
| StepParser.ParsePlainTextSteps | ai-guide/src/chatbot.jsx:31-68 | the parser's output equals the reference definition (every sentence's intents, in order, numbered from 1); step `i` carries number `i + 1`, with no gap however many sentences yield nothing; every step is a click with a non-empty, quote-free target or a fill with a non-empty, quote-free label |
| StepParser.ParseSentencesMatchesIntents | ai-guide/src/chatbot.jsx:38-66 | the `forEach` over sentences, numbering each push by the current length plus one, produces the steps so far followed by the remaining sentences' intents numbered on from there |
| StepParser.SentencesSpec | ai-guide/src/chatbot.jsx:33-36 | every sentence is non-empty, contains no period and is already trimmed |
| StepParser.IntentsSpec | ai-guide/src/chatbot.jsx:38-65 | one sentence yields a click exactly when it mentions "click" and has a quoted span, and a fill exactly when it mentions "fill"/"enter" and has one; every yielded target is the first quoted span; a click always comes before a fill; so a sentence with "click" and no quoted span yields no click, and one with both keywords yields a click and a fill on the same text |
| StepParser.IntentOfSomeSentence | ai-guide/src/chatbot.jsx:38-65 | every step the parser emits comes from some sentence that mentions its keyword and whose first quoted span is its target |
| StepParser.SentenceOrder | ai-guide/src/chatbot.jsx:38-65 | output order follows sentence order: the steps of later sentences come after those of earlier ones, numbered on from where those stopped |
| StepParser.ParsedStepsEmptyIff | ai-guide/src/chatbot.jsx:31-68 | the parser returns no step exactly when no sentence mentions a keyword together with a quoted span |
| StepParser.KeywordAnywhere | ai-guide/src/chatbot.jsx:40-55 | keyword tests are raw substring tests on the lower-cased sentence: "click", "CLICK", "fill" and "enter" count anywhere, inside longer words too ("clicking", "center") |
| StepParser.TargetsHaveNoPeriod | ai-guide/src/chatbot.jsx:34-57 | because the text is split on every period first, no step target or label ever contains a period, even when the quoted span in the reply did |
| Quotes.FirstQuotedSpec | ai-guide/src/chatbot.jsx:42-43 | the quoted span is absent exactly when no pair of quotes encloses a non-empty quote-free text; otherwise it is the text enclosed by the pair with the leftmost opening quote, never empty and never containing a quote |
| Text.TrimSpec | ai-guide/src/chatbot.jsx:35 | `trim` cuts only whitespace from each end and leaves a string that neither starts nor ends with whitespace |
| Text.TrimEmptyIff | ai-guide/src/chatbot.jsx:166 | a trimmed input is empty exactly when the input is all whitespace |
| Text.SplitJoin | ai-guide/src/chatbot.jsx:34 | splitting on a separator and joining with it are inverse: pieces free of the separator, joined, split back into the same pieces (and `Split` itself joins back to its input) |
| Text.ContainsSpec | ai-guide/src/chatbot.jsx:40 | `includes` holds exactly when the substring occurs at some offset |
| Text.LowerTrimCommute | ai-guide/src/chatbot.jsx:211 | lower-casing and trimming can be done in either order |
| Text.NatToStringSpec | ai-guide/src/chatbot.jsx:244 | a number is rendered as decimal digits, without a leading zero, whose value is the number |
| Page.ExtractUIMetadata | ai-guide/src/chatbot.jsx:71-103 | the snapshot carries the route untrimmed and the title the title rule gives; its lists, icon entries included, are stated by SnapshotMembers, IconMembers and SnapshotOfOne below |
| Page.PageTitleSpec | ai-guide/src/chatbot.jsx:72-74 | the title is the trimmed text of the first h1/h2/h3 in document order, and the trimmed route only when the page has no heading |
| Page.SnapshotMembers | ai-guide/src/chatbot.jsx:76-88 | a text is listed as a column, a form label or a button text exactly when it is non-empty and is the trimmed text of an element of that kind |
| Page.SnapshotEntriesTrimmed | ai-guide/src/chatbot.jsx:76-93 | no column, label or button text in the snapshot is empty or padded, and no icon label is padded |
| Page.SnapshotOfConcat | ai-guide/src/chatbot.jsx:76-93 | the snapshot's lists follow document order: the lists for two runs of elements are the concatenation of each run's lists |
| Page.IconMembers | ai-guide/src/chatbot.jsx:90-93 | an entry is in the icon list exactly when it carries the trimmed aria-label of some button (the empty label for a button without one) |
| Page.SnapshotOfOne | ai-guide/src/chatbot.jsx:76-93 | a single element contributes its trimmed text to the column, label or text-button list of its kind when that text is non-empty, and a button always contributes one icon entry with its trimmed aria-label |
| Page.IconButtonsOnePerButton | ai-guide/src/chatbot.jsx:86-93 | for every page, the snapshot has exactly one icon entry per button, with or without an aria-label, and at most that many text buttons |
| Page.FindButtonByText | ai-guide/src/chatbot.jsx:208-213 | a found index is a button whose trimmed, lower-cased text equals the trimmed, lower-cased query |
| Page.FindButtonByTextSpec | ai-guide/src/chatbot.jsx:208-213 | the button found is the first match in document order, and none is found exactly when no button matches |
| Page.FindFieldByLabel | ai-guide/src/chatbot.jsx:214-221 | a found index is a label element (not an input) whose trimmed, lower-cased text equals the lower-cased query |
| Page.FindFieldByLabelSpec | ai-guide/src/chatbot.jsx:214-221 | the label found is the first match in document order, and none is found exactly when no label matches |
| Page.AdvertisedButtonResolves | ai-guide/src/chatbot.jsx:86-88 | every button text the snapshot advertises is found again by the button lookup |
| Page.AdvertisedLabelResolves | ai-guide/src/chatbot.jsx:80-84 | every form label the snapshot advertises is found again by the label lookup |
| Page.ButtonLookupIgnoresCase | ai-guide/src/chatbot.jsx:211 | the button lookup gives the same answer for a query and its lower-cased form |
| Page.ButtonLookupIgnoresPadding | ai-guide/src/chatbot.jsx:211 | the button lookup gives the same answer for a query with whitespace around it |
| Page.LabelLookupIgnoresCase | ai-guide/src/chatbot.jsx:218 | the label lookup gives the same answer for a query and its lower-cased form |
| Page.LabelQueryNotTrimmed | ai-guide/src/chatbot.jsx:218 | a label "Email" is found by the query "Email" but not by " Email": the label query is not trimmed |
| Tour.Partition | ai-guide/src/chatbot.jsx:226-237 | at most one step goes first and it is a click; one goes first exactly when the steps contain a click; the two sides together hold as many steps as the input (their contents are stated by PartitionSpec) |
| Tour.PartitionSpec | ai-guide/src/chatbot.jsx:226-237 | the split of the steps matches an independent description: with no click, nothing goes first and every step is deferred; otherwise the first click alone goes first and all other steps are deferred, in their original order |
| Tour.StartVisualDemo | ai-guide/src/chatbot.jsx:223-251 | starting a demo always runs the tour, and every step is either shown now or kept pending |
| Tour.DemoFirstPhase | ai-guide/src/chatbot.jsx:223-251 | a demo replaces the whole tour state: it shows exactly the first click (anchored on its button, announced by its own number) and keeps every other step pending; with no click it shows nothing and keeps all steps pending |
| Tour.FillsOnlyWaitForNavigation | ai-guide/src/chatbot.jsx:230-250 | a demo of fills only shows nothing until the route changes |
| Tour.FillBeforeClickIsDeferred | ai-guide/src/chatbot.jsx:230-250 | for fill "Email", click "Save", click "Confirm" on a page without such buttons, the tour first shows the Save click on the page body and defers the fill and the second click, in their order |
| Tour.FirstPhaseAnnouncement | ai-guide/src/chatbot.jsx:244 | the first phase announces the click of step 2 on "Save" as "Step 2: Click 'Save'" |
| Tour.EmptyPageHasNoTargets | ai-guide/src/chatbot.jsx:241-243 | on a page with no elements both lookups find nothing, so every tour step falls back to the page body |
| Tour.OnRouteChange | ai-guide/src/chatbot.jsx:252-280 | after a route change nothing is pending; pending steps start a running tour; with nothing pending the state is left unchanged |
| Tour.TourStepAnchors | ai-guide/src/chatbot.jsx:239-270 | a click points at the first button matching its text, and at the page body exactly when none matches; a fill points at the first matching label the same way and announces "Fill '<label>'"; the deferred phase anchors a click as the first phase does and announces "Click '<text>'"; other actions give no tour step |
| Tour.AdvertisedClickAnchored | ai-guide/src/chatbot.jsx:86-88 | a click on a button text the snapshot advertised is anchored on a page element, never on the body, in either phase |
| Tour.SecondPhase | ai-guide/src/chatbot.jsx:254-274 | the deferred phase shows one tour step per pending click or fill, so never more steps than are pending |
| Tour.SecondPhaseIsFilterMap | ai-guide/src/chatbot.jsx:256-272 | the deferred phase is the per-step translation (a fill anchored on its label, a click on its button, anything else dropped) applied to every pending step, with the dropped ones filtered out |
| Tour.SecondPhaseAppend | ai-guide/src/chatbot.jsx:256-272 | the deferred phase keeps the order of the pending steps: two runs of steps give the first run's tour steps followed by the second's |
| Tour.SecondPhaseOfActionable | ai-guide/src/chatbot.jsx:256-274 | when every pending step is a click or a fill, the deferred phase keeps them all, in order, each anchored on its own label or button |
| Tour.DemoShowsEachActionOnce | ai-guide/src/chatbot.jsx:223-280 | if the route changes while steps are pending, the two phases together show every click and fill of the demo exactly once; the first click is shown first, on the first page, and the route change then shows the deferred phase of the steps before it followed by that of the steps after it, on the new page |
| Tour.RouteChangeIdempotent | ai-guide/src/chatbot.jsx:252-280 | a second route change without a new demo leaves the tour alone |
| Tour.OnJoyrideCallback | ai-guide/src/chatbot.jsx:313-317 | the tour library's callback stops the tour exactly on "finished" or "skipped", leaves a stopped tour stopped, and changes nothing else |
| Tour.FinishKeepsSecondPhase | ai-guide/src/chatbot.jsx:313-317 | finishing the first phase does not cancel the deferred one: the pending steps still become the tour at the next route change |
| Chat.RawText | ai-guide/src/chatbot.jsx:180 | there is no reply text exactly when the body is an object with neither a non-empty `raw` nor a non-empty `message`; from an object, the text is one of those two fields and never empty |
| Chat.Interpret | ai-guide/src/chatbot.jsx:183-192 | a reply that does not parse keeps its raw text as the explanation; unless it parses to an object, every step is a click or fill on a quoted span, numbered 1..n |
| Chat.ReplyMessage | ai-guide/src/chatbot.jsx:194-203 | every reply, successful or not, appends an assistant message |
| Chat.SendMessage | ai-guide/src/chatbot.jsx:165-204 | the log only grows: earlier messages are kept as they were, and it grows by nothing for a whitespace-only input and by two messages otherwise |
| Chat.BlankInputIsNoOp | ai-guide/src/chatbot.jsx:166 | a whitespace-only or empty input changes nothing and sends no request |
| Chat.QuestionThenAnswer | ai-guide/src/chatbot.jsx:167-178 | otherwise the trimmed question (non-empty, not padded) is appended first and is the text sent with the page snapshot; the reply's message follows it; the input is cleared |
| Chat.SendKeepsAlternating | ai-guide/src/chatbot.jsx:165-204 | every send keeps the log alternating: questions (trimmed, non-empty, without steps) at even positions, assistant messages at odd ones |
| Chat.DemoOnlyUnderAnswers | ai-guide/src/chatbot.jsx:356-364 | in such a log the "Show Visual Demo" button is only ever offered under assistant messages |
| Chat.ErrorReplies | ai-guide/src/chatbot.jsx:198-203 | a failed request, and a body with neither a non-empty `raw` nor a non-empty `message`, append "Error contacting server." without steps, which offers no demo |
| Chat.ServerAnswer | ai-guide/src/chatbot.jsx:180 | the server's `{message: answer}` is read as if the answer were the whole body when it is non-empty, and ends in the error message when it is empty |
| Chat.RawFieldWins | ai-guide/src/chatbot.jsx:180 | a non-empty `raw` field is used whatever `message` holds |
| Chat.PlainTextReply | ai-guide/src/chatbot.jsx:189-191 | when the reply does not parse as JSON (or parses to `null`), the message text is the raw reply and its steps are the prose parser's, numbered 1..n, each a click or a fill on a quoted span |
| Chat.StructuredReply | ai-guide/src/chatbot.jsx:184-188 | when the reply parses to an object, its `explanation` and `steps` are taken as they are, with "" and [] for absent ones |
| Chat.OtherJsonReply | ai-guide/src/chatbot.jsx:184-188 | a reply that parses to a value other than `null` or an object (a number, a string, an array) gives an empty text and no steps, so no demo |
| Chat.PlainTextDemoOffered | ai-guide/src/chatbot.jsx:356-364 | under a plain-text reply the demo button is offered exactly when some sentence of it mentions a keyword and has a quoted span |
| Prompt.IconLabelsSpec | server/ai-server.js:25-27 | the icon labels are exactly the non-empty aria-labels of the icon entries, none of them empty |
| Prompt.IconLabelsOrder | server/ai-server.js:25-27 | the icon labels keep the order of the icon entries: two runs of entries give the first run's labels followed by the second's, and one entry gives its label when that is non-empty and nothing otherwise |
| Prompt.SegmentShape | server/ai-server.js:19-29 | a segment is empty exactly when its list is, and otherwise opens with its name and ": "; a one-item segment is "<name>: <item>. " |
| Prompt.SegmentOfConcat | server/ai-server.js:19-29 | items are separated by ", " and the segment ends with ". ": the segment of two non-empty lists is the name, the first list's items, one more ", ", the second list's items and ". " |
| Prompt.Summary | server/ai-server.js:18-29 | every summary begins with the route line |
| Prompt.SummaryBareIff | server/ai-server.js:18-29 | the summary is the route line alone exactly when there are no columns, no form fields, no text buttons and no non-empty icon labels |
| Prompt.SummaryStartsWithRoute | server/ai-server.js:18 | every summary starts with "Route: <path>. Page: <title>. " |
| Prompt.SegmentsInOrder | server/ai-server.js:18-29 | the segments sit one after another, right after the route line, in the fixed order columns, form fields, visible buttons, icon buttons, and nothing else follows |
| Prompt.SegmentMentions | server/ai-server.js:20 | every item of a listed segment occurs in it |
| Prompt.SummaryMentions | server/ai-server.js:19-29 | every column, form field, visible button and non-empty icon label occurs in the summary |
| Prompt.BuildPrompt | server/ai-server.js:31-36 | the prompt opens with a newline and is exactly as long as the summary, the question line and the instructions plus the three newlines between them |
| Prompt.PromptLayout | server/ai-server.js:31-36 | the prompt holds the summary right after its opening newline, the quoted question on the next line, and the instructions on the line after that, at the very end |
| Prompt.SummaryInPrompt | server/ai-server.js:31-36 | whatever the summary mentions, the prompt mentions |
| Prompt.IconLabelReachesPrompt | server/ai-server.js:25-28 | from page to prompt: the trimmed aria-label of every button whose trimmed aria-label is non-empty reaches the language model |
| Prompt.ButtonTextReachesPrompt | server/ai-server.js:23-24 | from page to prompt: the trimmed text of every button whose trimmed text is non-empty reaches the language model |

## Left out

- React rendering, the MUI components, opening and closing the modal and the scroll-to-bottom effect: user interface with no logic to state.
- The tour library's rendering and overlay: a tour step's target is modelled as an element index or the page body, and the callback's status as an enumeration.
- The HTTP request, Express routing, CORS and the language-model call: the server's reply is a parameter, a `Reply` value; the server handler's own error response (`500`) is one of the ways a request fails.
- The internals of `JSON.parse`: it is a parameter `string -> Option<Json>`.
- JSON steps whose fields are missing or are not strings, a `steps` value that is not an array of step objects, and truthy non-string `explanation`, `raw` or `message` values: these would throw or be stringified in JavaScript; a step's absent text field is the empty string.
- Unicode case mapping: `toLowerCase` is modelled on ASCII letters only; every other character is left unchanged.
- Concurrency: the model handles one message at a time, with its reply arriving before the next send, and one route change at a time.
- Element identity: the page's elements are flags (heading, column header, label, button) over a text and an aria-label; one element may match several selectors. A tour target that the page later removes is not modelled.
- Chat.SendMessage: the state also gains a pending request; the model returns the request from `Submit` and takes the reply as a parameter, so the order "user message, then request" is stated but not the time in between.
- Tour.OnRouteChange: the effect runs after a render of the assistant component in which `window.location.pathname` differs from the previous render's; a navigation alone does not re-render that component. The model applies the effect when called and leaves out when React renders.
- Action strings: a step's `action` is the `Action` datatype, read from the string by `ActionOf`; steps from a structured reply are taken to carry well-formed actions, so an other-action never stands for "click" or "fill".
- Logging: the `console.log` of the demo's steps and the `console.error` of a failed request have no effect on the state and are dropped.
- The setup script that uploads files and creates an assistant, and the application shell: I/O and composition only.

=== FILE: chat.dfy ===
/** The conversation log of the assistant widget (`sendMessage`): the user's
    trimmed question is appended first, then one assistant message built from
    the server's reply, or the fixed error text when the request fails. The
    server and `JSON.parse` are parameters: a `Reply` stands for what the
    request produced, and `parse` for the JSON parser. */
module Chat {
  import opened Options
  import opened Text
  import opened StepParser
  import opened Page

  datatype Role = User | Assistant

  /** One entry of the log. `steps` is absent on user messages and on the
      error message, and present (possibly empty) on every other reply. */
  datatype Message = Message(role: Role, text: string, steps: Option<seq<Step>>)

  /** The response body `res.data`: a bare string, or an object whose `raw`
      and `message` fields are strings or absent. */
  datatype Body = TextBody(text: string) | ObjectBody(raw: Option<string>, message: Option<string>)

  /** What `JSON.parse` returns when it does not throw: `null`, an object
      (whose `steps` and `explanation` may be absent), or any other value
      (a number, a string, an array), which has neither field. */
  datatype Json = JsonNull | JsonObject(steps: Option<seq<Step>>, explanation: Option<string>) | JsonOther

  /** Outcome of the request: it threw (network error, non-2xx status), or it
      delivered a body. */
  datatype Reply = Failed | Delivered(body: Body)

  const ErrorText: string := "Error contacting server."

  const ErrorMessage: Message := Message(Assistant, ErrorText, None)

  /** A string field is truthy when present and non-empty. */
  predicate Truthy(v: Option<string>) {
    v.Some? && v.value != ""
  }

  /** `res.data.raw || res.data.message || res.data`. None stands for the case
      where neither field is truthy and the body object itself is taken: it
      is no string, so the fallback's `split` throws and the outer handler
      reports the error. */
  function RawText(body: Body): (r: Option<string>)
    ensures r.None? <==> body.ObjectBody? && !Truthy(body.raw) && !Truthy(body.message)
    ensures r.Some? && body.ObjectBody? ==> r.value != "" && (r == body.raw || r == body.message)
  {
    match body
    case TextBody(t) => Some(t)
    case ObjectBody(raw, message) =>
      if Truthy(raw) then raw else if Truthy(message) then message else None
  }

  /** The inner `try`: a parsed object supplies its explanation and steps (or
      "" and []); a parse failure, or `null` (whose `.steps` throws inside the
      same `try`), falls back to the raw text and the steps the prose parser
      finds in it. */
  function Interpret(raw: string, parse: string -> Option<Json>): (r: (string, seq<Step>))
    ensures parse(raw).None? ==> r.0 == raw
    ensures !(parse(raw).Some? && parse(raw).value.JsonObject?) ==>
      forall i :: 0 <= i < |r.1| ==> r.1[i].step == i + 1 && IsParsedStep(r.1[i])
  {
    match parse(raw)
    case None => (raw, ParsePlainTextSteps(raw))
    case Some(JsonNull) => (raw, ParsePlainTextSteps(raw))
    case Some(JsonObject(steps, explanation)) => (explanation.GetOr(""), steps.GetOr([]))
    case Some(JsonOther) => ("", [])
  }

  /** The assistant message a reply appends. */
  function ReplyMessage(reply: Reply, parse: string -> Option<Json>): (m: Message)
    ensures m.role == Assistant
  {
    match reply
    case Failed => ErrorMessage
    case Delivered(body) =>
      match RawText(body)
      case None => ErrorMessage
      case Some(raw) =>
        var (text, steps) := Interpret(raw, parse);
        Message(Assistant, text, Some(steps))
  }

  /** The "Show Visual Demo" button is rendered under a message exactly when
      it is an assistant message carrying at least one step. */
  predicate CanShowDemo(m: Message) {
    m.role == Assistant && m.steps.Some? && |m.steps.value| > 0
  }

  /** The component state `sendMessage` touches: the log and the input box. */
  datatype ChatState = ChatState(messages: seq<Message>, input: string)

  /** The body posted to the server. */
  datatype Request = Request(userMessage: string, uiMetadata: Metadata)

  /** The synchronous part of `sendMessage`: nothing for a blank input;
      otherwise the trimmed question is appended, the input cleared, and the
      request built from the question and a snapshot of the page. */
  function Submit(s: ChatState, page: Page): Option<(ChatState, Request)> {
    var question := Trim(s.input);
    if question == "" then None
    else
      Some((ChatState(s.messages + [Message(User, question, None)], ""),
            Request(question, ExtractUIMetadata(page))))
  }

  /** The asynchronous part: the reply's message is appended. */
  function Receive(s: ChatState, reply: Reply, parse: string -> Option<Json>): ChatState {
    s.(messages := s.messages + [ReplyMessage(reply, parse)])
  }

  /** `sendMessage()` with the reply arriving before anything else happens.
      The log only grows: by nothing for a whitespace-only input, by the
      question and its answer otherwise. */
  function SendMessage(s: ChatState, page: Page, reply: Reply, parse: string -> Option<Json>): (r: ChatState)
    ensures |r.messages| == |s.messages| + (if AllWhitespace(s.input) then 0 else 2)
    ensures r.messages[..|s.messages|] == s.messages
  {
    TrimEmptyIff(s.input);
    match Submit(s, page)
    case None => s
    case Some((sent, _)) => Receive(sent, reply, parse)
  }

  /** A whitespace-only input (or an empty one) changes nothing. */
  lemma BlankInputIsNoOp(s: ChatState, page: Page, reply: Reply, parse: string -> Option<Json>)
    requires AllWhitespace(s.input)
    ensures SendMessage(s, page, reply, parse) == s
    ensures Submit(s, page).None?
  {
    TrimEmptyIff(s.input);
  }

  /** Otherwise the question goes first, trimmed and non-empty, and is the
      text sent to the server; the answer follows it; the input is cleared. */
  lemma QuestionThenAnswer(s: ChatState, page: Page, reply: Reply, parse: string -> Option<Json>)
    requires !AllWhitespace(s.input)
    ensures var r := SendMessage(s, page, reply, parse);
      && r.messages[|s.messages|] == Message(User, Trim(s.input), None)
      && r.messages[|s.messages| + 1] == ReplyMessage(reply, parse)
      && r.input == ""
    ensures Trim(s.input) != "" && IsTrimmed(Trim(s.input))
    ensures Submit(s, page).Some?
    ensures Submit(s, page).value.1 == Request(Trim(s.input), ExtractUIMetadata(page))
  {
    TrimEmptyIff(s.input);
    TrimSpec(s.input);
  }

  /** A user entry: no steps, and a non-empty trimmed text. */
  ghost predicate IsQuestion(m: Message) {
    m.role == User && m.steps.None? && m.text != "" && IsTrimmed(m.text)
  }

  /** The shape of every log `sendMessage` builds from an empty one: questions
      and answers alternate, starting with a question. */
  ghost predicate Alternating(msgs: seq<Message>) {
    && |msgs| % 2 == 0
    && (forall i :: 0 <= i < |msgs| && i % 2 == 0 ==> IsQuestion(msgs[i]))
    && (forall i :: 0 <= i < |msgs| && i % 2 == 1 ==> msgs[i].role == Assistant)
  }

  /** Every send keeps the log alternating. */
  lemma SendKeepsAlternating(s: ChatState, page: Page, reply: Reply, parse: string -> Option<Json>)
    requires Alternating(s.messages)
    ensures Alternating(SendMessage(s, page, reply, parse).messages)
  {
    if AllWhitespace(s.input) {
      BlankInputIsNoOp(s, page, reply, parse);
    } else {
      TrimEmptyIff(s.input);
      TrimSpec(s.input);
      var q, a := Message(User, Trim(s.input), None), ReplyMessage(reply, parse);
      assert SendMessage(s, page, reply, parse).messages == s.messages + [q] + [a];
      AlternatingAppend(s.messages, q, a);
    }
  }

  /** A question and an answer appended to an alternating log keep it so. */
  lemma AlternatingAppend(msgs: seq<Message>, q: Message, a: Message)
    requires Alternating(msgs) && IsQuestion(q) && a.role == Assistant
    ensures Alternating(msgs + [q] + [a])
  {
    var r := msgs + [q] + [a];
    forall i | 0 <= i < |r| && i % 2 == 0 ensures IsQuestion(r[i]) {
      if i < |msgs| {
        assert r[i] == msgs[i];
      }
    }
    forall i | 0 <= i < |r| && i % 2 == 1 ensures r[i].role == Assistant {
      if i < |msgs| {
        assert r[i] == msgs[i];
      }
    }
  }

  /** In such a log the demo button only ever sits under answers. */
  lemma DemoOnlyUnderAnswers(msgs: seq<Message>, i: nat)
    requires Alternating(msgs) && i < |msgs| && CanShowDemo(msgs[i])
    ensures i % 2 == 1
  {
  }

  /** A failed request, and a body with neither a truthy `raw` nor a truthy
      `message`, both append the error message, which offers no demo. */
  lemma ErrorReplies(body: Body, parse: string -> Option<Json>)
    requires RawText(body).None?
    ensures ReplyMessage(Failed, parse) == ErrorMessage
    ensures ReplyMessage(Delivered(body), parse) == ErrorMessage
    ensures !CanShowDemo(ErrorMessage)
  {
  }

  /** The server answers `{message: answer}`: a non-empty answer is read as if
      it were the whole body, an empty one ends in the error message. */
  lemma ServerAnswer(answer: string, parse: string -> Option<Json>)
    ensures answer != "" ==>
      ReplyMessage(Delivered(ObjectBody(None, Some(answer))), parse) == ReplyMessage(Delivered(TextBody(answer)), parse)
    ensures answer == "" ==>
      ReplyMessage(Delivered(ObjectBody(None, Some(answer))), parse) == ErrorMessage
  {
  }

  /** A truthy `raw` field wins over `message`. */
  lemma RawFieldWins(raw: string, message: Option<string>, parse: string -> Option<Json>)
    requires raw != ""
    ensures ReplyMessage(Delivered(ObjectBody(Some(raw), message)), parse) == ReplyMessage(Delivered(TextBody(raw)), parse)
  {
  }

  /** When the reply does not parse (or parses to `null`), the explanation is
      the raw text itself and the steps are what the prose parser finds in
      it: numbered 1..n, each a click or fill naming a quoted span. */
  lemma PlainTextReply(body: Body, raw: string, parse: string -> Option<Json>)
    requires RawText(body) == Some(raw)
    requires parse(raw).None? || parse(raw) == Some(JsonNull)
    ensures ReplyMessage(Delivered(body), parse) == Message(Assistant, raw, Some(ParsePlainTextSteps(raw)))
    ensures forall i :: 0 <= i < |ParsePlainTextSteps(raw)| ==>
      ParsePlainTextSteps(raw)[i].step == i + 1 && IsParsedStep(ParsePlainTextSteps(raw)[i])
  {
  }

  /** When the reply parses to an object, its `explanation` and `steps` are
      taken as they are, with "" and [] for absent ones. */
  lemma StructuredReply(body: Body, raw: string, parse: string -> Option<Json>,
                        steps: Option<seq<Step>>, explanation: Option<string>)
    requires RawText(body) == Some(raw)
    requires parse(raw) == Some(JsonObject(steps, explanation))
    ensures ReplyMessage(Delivered(body), parse).text == explanation.GetOr("")
    ensures ReplyMessage(Delivered(body), parse).steps == Some(steps.GetOr([]))
  {
  }

  /** When the reply parses to a value that is neither `null` nor an object
      (a number, a string, an array), both field reads give `undefined`: the
      message has an empty text and no steps, so it offers no demo. */
  lemma OtherJsonReply(body: Body, raw: string, parse: string -> Option<Json>)
    requires RawText(body) == Some(raw)
    requires parse(raw) == Some(JsonOther)
    ensures ReplyMessage(Delivered(body), parse) == Message(Assistant, "", Some([]))
    ensures !CanShowDemo(ReplyMessage(Delivered(body), parse))
  {
  }

  /** Under a plain-text reply the demo is offered exactly when some sentence
      of it mentions a click or a fill/enter and has a quoted span. */
  lemma PlainTextDemoOffered(body: Body, raw: string, parse: string -> Option<Json>)
    requires RawText(body) == Some(raw)
    requires parse(raw).None? || parse(raw) == Some(JsonNull)
    ensures CanShowDemo(ReplyMessage(Delivered(body), parse)) <==>
      exists j :: 0 <= j < |Sentences(raw)| && Yields(Sentences(raw)[j])
  {
    ParsedStepsEmptyIff(raw);
  }
}

=== FILE: options.dfy ===
/** The optional value used wherever the JavaScript code has `undefined`, `null` or a
    "not found" result. */
module Options {

  datatype Option<+T> = None | Some(value: T) {

    /** The wrapped value, or `default` when there is none (JavaScript's `x || default`
        for values whose only falsy form is absence). */
    function GetOr(default: T): T {
      match this
      case Some(v) => v
      case None => default
    }
  }
}

=== FILE: page.dfy ===
/** The page as the assistant sees it: the route and the rendered elements in
    document order, the snapshot `extractUIMetadata` takes of them, and the two
    lookups the tour uses to anchor its steps (`findButtonByText`,
    `findFieldByLabel`). */
module Page {
  import opened Options
  import opened Seqs
  import opened Text

  /** One rendered element and the selectors it matches: `heading` for
      h1/h2/h3, `columnHeader` for role="columnheader", `fieldLabel` for a label
      element or the .MuiInputLabel-root class, `button` for a button element.
      `ariaLabel` is "" when the attribute is absent. */
  datatype Element = Element(
    heading: bool,
    columnHeader: bool,
    fieldLabel: bool,
    button: bool,
    innerText: string,
    ariaLabel: string)

  /** The current route (`window.location.pathname`) and the elements in
      document order. An element is identified by its index. */
  datatype Page = Page(path: string, elements: seq<Element>)

  datatype IconButton = IconButton(ariaLabel: string)

  /** The snapshot sent along with every question. */
  datatype Metadata = Metadata(
    currentPath: string,
    pageTitle: string,
    tableHeaders: seq<string>,
    formLabels: seq<string>,
    textButtons: seq<string>,
    iconButtons: seq<IconButton>)

  predicate IsHeading(e: Element) {
    e.heading
  }

  /** The trimmed text of a column header, unless it is empty. */
  function ColumnHeaderText(e: Element): Option<string> {
    if e.columnHeader then NonEmptyTrimmed(e.innerText) else None
  }

  function LabelText(e: Element): Option<string> {
    if e.fieldLabel then NonEmptyTrimmed(e.innerText) else None
  }

  function ButtonText(e: Element): Option<string> {
    if e.button then NonEmptyTrimmed(e.innerText) else None
  }

  /** Every button contributes one icon entry, even with no aria-label. */
  function IconOf(e: Element): Option<IconButton> {
    if e.button then Some(IconButton(Trim(e.ariaLabel))) else None
  }

  /** The trimmed text of the first h1/h2/h3 — even when that text is empty —
      and the trimmed route when the page has no heading. */
  function PageTitle(page: Page): string {
    match FirstIndex(IsHeading, page.elements)
    case Some(i) => Trim(page.elements[i].innerText)
    case None => Trim(page.path)
  }

  /** The title comes from the first heading in document order, and from
      the route only when there is no heading at all. */
  lemma PageTitleSpec(page: Page)
    ensures (forall i :: 0 <= i < |page.elements| ==> !page.elements[i].heading) ==>
      PageTitle(page) == Trim(page.path)
    ensures forall i :: 0 <= i < |page.elements| && page.elements[i].heading ==>
      (forall j :: 0 <= j < i ==> !page.elements[j].heading) ==>
      PageTitle(page) == Trim(page.elements[i].innerText)
  {
    var els := page.elements;
    FirstIndexSpec(IsHeading, els);
    match FirstIndex(IsHeading, els)
    case None =>
    case Some(f) =>
      forall i | 0 <= i < |els| && els[i].heading && (forall j :: 0 <= j < i ==> !els[j].heading)
        ensures PageTitle(page) == Trim(els[i].innerText)
      {
        assert IsHeading(els[i]) && IsHeading(els[f]);
        assert i == f;
      }
  }

  /** The snapshot's lists, each in document order. */
  function TableHeaders(els: seq<Element>): seq<string> {
    FilterMap(ColumnHeaderText, els)
  }

  function FormLabels(els: seq<Element>): seq<string> {
    FilterMap(LabelText, els)
  }

  function TextButtons(els: seq<Element>): seq<string> {
    FilterMap(ButtonText, els)
  }

  function IconButtons(els: seq<Element>): seq<IconButton> {
    FilterMap(IconOf, els)
  }

  /** `extractUIMetadata()`. The path is passed through untrimmed. */
  function ExtractUIMetadata(page: Page): (m: Metadata)
    ensures m.currentPath == page.path
    ensures m.pageTitle == PageTitle(page)
  {
    Metadata(
      page.path,
      PageTitle(page),
      TableHeaders(page.elements),
      FormLabels(page.elements),
      TextButtons(page.elements),
      IconButtons(page.elements))
  }

  /** The snapshot's text lists hold exactly the non-empty trimmed texts of the
      elements of each kind. */
  lemma SnapshotMembers(page: Page, t: string)
    ensures t in ExtractUIMetadata(page).tableHeaders <==>
      t != "" && exists i :: 0 <= i < |page.elements| && page.elements[i].columnHeader && Trim(page.elements[i].innerText) == t
    ensures t in ExtractUIMetadata(page).formLabels <==>
      t != "" && exists i :: 0 <= i < |page.elements| && page.elements[i].fieldLabel && Trim(page.elements[i].innerText) == t
    ensures t in ExtractUIMetadata(page).textButtons <==>
      t != "" && exists i :: 0 <= i < |page.elements| && page.elements[i].button && Trim(page.elements[i].innerText) == t
  {
    var els := page.elements;
    FilterMapIn(ColumnHeaderText, els, t);
    FilterMapIn(LabelText, els, t);
    FilterMapIn(ButtonText, els, t);
  }

  lemma TableHeadersTrimmed(els: seq<Element>)
    ensures forall k :: 0 <= k < |TableHeaders(els)| ==> TableHeaders(els)[k] != "" && IsTrimmed(TableHeaders(els)[k])
  {
    var r := TableHeaders(els);
    forall k | 0 <= k < |r| ensures r[k] != "" && IsTrimmed(r[k]) {
      FilterMapSound(ColumnHeaderText, els, k);
      var i :| 0 <= i < |els| && ColumnHeaderText(els[i]) == Some(r[k]);
      TrimSpec(els[i].innerText);
    }
  }

  lemma FormLabelsTrimmed(els: seq<Element>)
    ensures forall k :: 0 <= k < |FormLabels(els)| ==> FormLabels(els)[k] != "" && IsTrimmed(FormLabels(els)[k])
  {
    var r := FormLabels(els);
    forall k | 0 <= k < |r| ensures r[k] != "" && IsTrimmed(r[k]) {
      FilterMapSound(LabelText, els, k);
      var i :| 0 <= i < |els| && LabelText(els[i]) == Some(r[k]);
      TrimSpec(els[i].innerText);
    }
  }

  lemma TextButtonsTrimmed(els: seq<Element>)
    ensures forall k :: 0 <= k < |TextButtons(els)| ==> TextButtons(els)[k] != "" && IsTrimmed(TextButtons(els)[k])
  {
    var r := TextButtons(els);
    forall k | 0 <= k < |r| ensures r[k] != "" && IsTrimmed(r[k]) {
      FilterMapSound(ButtonText, els, k);
      var i :| 0 <= i < |els| && ButtonText(els[i]) == Some(r[k]);
      TrimSpec(els[i].innerText);
    }
  }

  lemma IconLabelsTrimmed(els: seq<Element>)
    ensures forall k :: 0 <= k < |IconButtons(els)| ==> IsTrimmed(IconButtons(els)[k].ariaLabel)
  {
    var r := IconButtons(els);
    forall k | 0 <= k < |r| ensures IsTrimmed(r[k].ariaLabel) {
      FilterMapSound(IconOf, els, k);
      var i :| 0 <= i < |els| && IconOf(els[i]) == Some(r[k]);
      TrimSpec(els[i].ariaLabel);
    }
  }

  /** The icon list holds exactly one entry per button, carrying that
      button's trimmed aria-label (the empty string when it has none). */
  lemma IconMembers(page: Page, b: IconButton)
    ensures b in ExtractUIMetadata(page).iconButtons <==>
      exists i :: 0 <= i < |page.elements| && page.elements[i].button && b == IconButton(Trim(page.elements[i].ariaLabel))
  {
    FilterMapIn(IconOf, page.elements, b);
  }

  /** The snapshot of a single element: a column header, a label or a button
      contributes its trimmed text when that is non-empty, and a button
      always contributes an icon entry with its trimmed aria-label. With
      SnapshotOfConcat this fixes every list of every snapshot. */
  lemma SnapshotOfOne(path: string, e: Element)
    ensures var m := ExtractUIMetadata(Page(path, [e]));
      && m.tableHeaders == (if e.columnHeader && Trim(e.innerText) != "" then [Trim(e.innerText)] else [])
      && m.formLabels == (if e.fieldLabel && Trim(e.innerText) != "" then [Trim(e.innerText)] else [])
      && m.textButtons == (if e.button && Trim(e.innerText) != "" then [Trim(e.innerText)] else [])
      && m.iconButtons == (if e.button then [IconButton(Trim(e.ariaLabel))] else [])
  {
    FilterMapSingle(ColumnHeaderText, e);
    FilterMapSingle(LabelText, e);
    FilterMapSingle(ButtonText, e);
    FilterMapSingle(IconOf, e);
  }

  /** No snapshot list entry is empty or padded (so `trim` leaves each as it
      is, by TrimmedIsFixed), and no icon label is padded. */
  lemma SnapshotEntriesTrimmed(page: Page)
    ensures forall t :: t in ExtractUIMetadata(page).tableHeaders ==> t != "" && IsTrimmed(t)
    ensures forall t :: t in ExtractUIMetadata(page).formLabels ==> t != "" && IsTrimmed(t)
    ensures forall t :: t in ExtractUIMetadata(page).textButtons ==> t != "" && IsTrimmed(t)
    ensures forall b :: b in ExtractUIMetadata(page).iconButtons ==> IsTrimmed(b.ariaLabel)
  {
    TableHeadersTrimmed(page.elements);
    FormLabelsTrimmed(page.elements);
    TextButtonsTrimmed(page.elements);
    IconLabelsTrimmed(page.elements);
  }

  /** The lists follow document order: the snapshot of two runs of elements
      is the concatenation of their snapshots. */
  lemma SnapshotOfConcat(path: string, a: seq<Element>, b: seq<Element>)
    ensures var m, ma, mb := ExtractUIMetadata(Page(path, a + b)), ExtractUIMetadata(Page(path, a)), ExtractUIMetadata(Page(path, b));
      && m.tableHeaders == ma.tableHeaders + mb.tableHeaders
      && m.formLabels == ma.formLabels + mb.formLabels
      && m.textButtons == ma.textButtons + mb.textButtons
      && m.iconButtons == ma.iconButtons + mb.iconButtons
  {
    FilterMapAppend(ColumnHeaderText, a, b);
    FilterMapAppend(LabelText, a, b);
    FilterMapAppend(ButtonText, a, b);
    FilterMapAppend(IconOf, a, b);
  }

  /** Number of button elements. */
  function ButtonCount(els: seq<Element>): nat {
    if els == [] then 0 else (if els[0].button then 1 else 0) + ButtonCount(els[1..])
  }

  /** One icon entry per button, whether or not it has an aria-label, and so
      at least as many icon entries as text buttons. */
  lemma IconButtonsOnePerButton(page: Page)
    ensures |ExtractUIMetadata(page).iconButtons| == ButtonCount(page.elements)
    ensures |ExtractUIMetadata(page).textButtons| <= ButtonCount(page.elements)
  {
    ButtonEntryCounts(page.elements);
  }

  lemma {:induction false} ButtonEntryCounts(els: seq<Element>)
    ensures |IconButtons(els)| == ButtonCount(els)
    ensures |TextButtons(els)| <= ButtonCount(els)
    decreases |els|
  {
    if els != [] {
      ButtonEntryCounts(els[1..]);
    }
  }

  /** `findButtonByText` compares the trimmed, lower-cased element text with
      the trimmed, lower-cased query. */
  predicate ButtonMatches(e: Element, text: string) {
    e.button && Lower(Trim(e.innerText)) == Lower(Trim(text))
  }

  /** The first button whose normalised text is `key`. */
  function FindButtonByKey(els: seq<Element>, key: string): Option<nat> {
    FirstIndex((e: Element) => e.button && Lower(Trim(e.innerText)) == key, els)
  }

  /** `findButtonByText(text)`: the first matching button, by index. */
  function FindButtonByText(page: Page, text: string): (r: Option<nat>)
    ensures r.Some? ==> r.value < |page.elements| && ButtonMatches(page.elements[r.value], text)
  {
    FindButtonByKey(page.elements, Lower(Trim(text)))
  }

  /** No button before the one found matches, and nothing is found exactly
      when no button matches. */
  lemma FindButtonByTextSpec(page: Page, text: string)
    ensures FindButtonByText(page, text).Some? ==>
      forall j :: 0 <= j < FindButtonByText(page, text).value ==> !ButtonMatches(page.elements[j], text)
    ensures FindButtonByText(page, text).None? <==>
      forall j :: 0 <= j < |page.elements| ==> !ButtonMatches(page.elements[j], text)
  {
    FirstIndexSpec((e: Element) => e.button && Lower(Trim(e.innerText)) == Lower(Trim(text)), page.elements);
  }

  /** `findFieldByLabel(labelText)` trims and lower-cases the element text
      but only lower-cases the query. */
  predicate LabelMatches(e: Element, labelText: string) {
    e.fieldLabel && Lower(Trim(e.innerText)) == Lower(labelText)
  }

  /** The first label whose normalised text is `key`. */
  function FindLabelByKey(els: seq<Element>, key: string): Option<nat> {
    FirstIndex((e: Element) => e.fieldLabel && Lower(Trim(e.innerText)) == key, els)
  }

  /** `findFieldByLabel(labelText)`: the first matching label element itself
      (not an input it labels), by index. */
  function FindFieldByLabel(page: Page, labelText: string): (r: Option<nat>)
    ensures r.Some? ==> r.value < |page.elements| && LabelMatches(page.elements[r.value], labelText)
  {
    FindLabelByKey(page.elements, Lower(labelText))
  }

  /** No label before the one found matches, and nothing is found exactly
      when no label matches. */
  lemma FindFieldByLabelSpec(page: Page, labelText: string)
    ensures FindFieldByLabel(page, labelText).Some? ==>
      forall j :: 0 <= j < FindFieldByLabel(page, labelText).value ==> !LabelMatches(page.elements[j], labelText)
    ensures FindFieldByLabel(page, labelText).None? <==>
      forall j :: 0 <= j < |page.elements| ==> !LabelMatches(page.elements[j], labelText)
  {
    FirstIndexSpec((e: Element) => e.fieldLabel && Lower(Trim(e.innerText)) == Lower(labelText), page.elements);
  }

  /** Every button text the snapshot advertises can be found again. */
  lemma AdvertisedButtonResolves(page: Page, t: string)
    requires t in ExtractUIMetadata(page).textButtons
    ensures FindButtonByText(page, t).Some?
  {
    var els := page.elements;
    SnapshotMembers(page, t);
    var i :| 0 <= i < |els| && els[i].button && Trim(els[i].innerText) == t;
    TrimIdempotent(els[i].innerText);
    assert ButtonMatches(els[i], t);
    FindButtonByTextSpec(page, t);
  }

  /** Every form label the snapshot advertises can be found again. */
  lemma AdvertisedLabelResolves(page: Page, t: string)
    requires t in ExtractUIMetadata(page).formLabels
    ensures FindFieldByLabel(page, t).Some?
  {
    var els := page.elements;
    SnapshotMembers(page, t);
    var i :| 0 <= i < |els| && els[i].fieldLabel && Trim(els[i].innerText) == t;
    assert LabelMatches(els[i], t);
    FindFieldByLabelSpec(page, t);
  }

  /** Button lookup ignores the case of the query... */
  lemma ButtonLookupIgnoresCase(page: Page, text: string)
    ensures FindButtonByText(page, Lower(text)) == FindButtonByText(page, text)
  {
    LowerTrimCommute(text);
    LowerIdempotent(Trim(text));
  }

  /** ...and whitespace around it. */
  lemma ButtonLookupIgnoresPadding(page: Page, a: string, text: string, b: string)
    requires AllWhitespace(a) && AllWhitespace(b)
    ensures FindButtonByText(page, a + text + b) == FindButtonByText(page, text)
  {
    TrimOfPaddedAny(a, text, b);
  }

  /** Label lookup ignores the case of the query. */
  lemma LabelLookupIgnoresCase(page: Page, labelText: string)
    ensures FindFieldByLabel(page, Lower(labelText)) == FindFieldByLabel(page, labelText)
  {
    LowerIdempotent(labelText);
  }

  /** Unlike button lookup, label lookup does not trim its query: a padded
      query misses a label the unpadded one finds. */
  lemma LabelQueryNotTrimmed()
    ensures var page := Page("/", [Element(false, false, true, false, "Email", "")]);
      && FindFieldByLabel(page, "Email") == Some(0)
      && FindFieldByLabel(page, " Email") == None
  {
    var page := Page("/", [Element(false, false, true, false, "Email", "")]);
    var e := page.elements[0];
    assert Trim("Email") == "Email" by {
      assert LeadingWhitespace("Email") == 0;
      assert TrailingStart("Email") == 5;
    }
    assert Lower("Email") == "email";
    assert Lower(" Email")[0] == ' ';
    assert !LabelMatches(e, " Email");
  }
}

=== FILE: prompt.dfy ===
/** The server side of a question (the `/assistant/message` handler): the
    snapshot is flattened into a summary string of the page, which is
    wrapped with the user's question and fixed instructions into the prompt
    sent to the language model. */
module Prompt {
  import opened Options
  import opened Seqs
  import opened Text
  import opened Page

  /** The opening of every summary: the route and the page title. */
  function RouteLine(m: Metadata): string {
    "Route: " + m.currentPath + ". Page: " + m.pageTitle + ". "
  }

  /** One optional segment: `name: a, b, c. ` for a non-empty list, nothing
      for an empty one. */
  function Segment(name: string, items: seq<string>): string {
    if |items| > 0 then name + ": " + Join(items, ", ") + ". " else ""
  }

  function LabelOf(b: IconButton): Option<string> {
    if b.ariaLabel != "" then Some(b.ariaLabel) else None
  }

  /** `iconButtons.filter(b => b.ariaLabel !== "").map(b => b.ariaLabel)`. */
  function IconLabels(icons: seq<IconButton>): seq<string> {
    FilterMap(LabelOf, icons)
  }

  /** The summary: route and page, then columns, form fields, visible buttons
      and icon buttons, each only when there is something to list. */
  function Summary(m: Metadata): (r: string)
    ensures RouteLine(m) <= r
  {
    RouteLine(m)
      + Segment("Table columns", m.tableHeaders)
      + Segment("Form fields", m.formLabels)
      + Segment("Visible buttons", m.textButtons)
      + Segment("Icon buttons", IconLabels(m.iconButtons))
  }

  const Instructions: string :=
    "Please respond with step-by-step actions the user should take within this UI.\n"
    + "Be specific: mention which button or icon to click, or which field to fill.\n    "

  /** The question line: the user's message in double quotes. */
  function Question(userMessage: string): string {
    "User asked: \"" + userMessage + "\""
  }

  /** The prompt: a blank line, the summary, the question line and the
      instructions. */
  function BuildPrompt(userMessage: string, m: Metadata): (p: string)
    ensures |p| == |Summary(m)| + |Question(userMessage)| + |Instructions| + 3
    ensures p[0] == '\n'
  {
    "\n" + Summary(m) + "\n" + Question(userMessage) + "\n" + Instructions
  }

  /** The icon labels are exactly the non-empty aria-labels, in order. */
  lemma IconLabelsSpec(icons: seq<IconButton>)
    ensures |IconLabels(icons)| <= |icons|
    ensures forall k :: 0 <= k < |IconLabels(icons)| ==> IconLabels(icons)[k] != ""
    ensures forall y :: y in IconLabels(icons) <==> y != "" && exists i :: 0 <= i < |icons| && icons[i].ariaLabel == y
  {
    forall k | 0 <= k < |IconLabels(icons)| ensures IconLabels(icons)[k] != "" {
      FilterMapSound(LabelOf, icons, k);
    }
    forall y ensures y in IconLabels(icons) <==> y != "" && exists i :: 0 <= i < |icons| && icons[i].ariaLabel == y {
      FilterMapIn(LabelOf, icons, y);
    }
  }

  /** The icon labels keep the order of the icon entries: the labels of two
      runs of entries are the first run's followed by the second's, and one
      entry contributes its aria-label when that is non-empty and nothing
      otherwise. */
  lemma IconLabelsOrder(a: seq<IconButton>, b: seq<IconButton>, x: IconButton)
    ensures IconLabels(a + b) == IconLabels(a) + IconLabels(b)
    ensures IconLabels([x]) == if x.ariaLabel != "" then [x.ariaLabel] else []
  {
    FilterMapAppend(LabelOf, a, b);
    FilterMapSingle(LabelOf, x);
  }

  /** A segment is empty exactly when its list is, and otherwise opens with
      its name. */
  lemma SegmentShape(name: string, items: seq<string>)
    requires name != ""
    ensures Segment(name, items) == "" <==> items == []
    ensures items != [] ==> Segment(name, items)[..|name| + 2] == name + ": "
    ensures forall x :: Segment(name, [x]) == name + ": " + x + ". "
  {
  }

  /** Items are separated by ", " and the segment ends with ". ": the segment
      of two non-empty lists joins their items with one more ", ". */
  lemma SegmentOfConcat(name: string, a: seq<string>, b: seq<string>)
    requires a != [] && b != []
    ensures Segment(name, a + b) == name + ": " + Join(a, ", ") + ", " + Join(b, ", ") + ". "
  {
    JoinAppend(a, b, ", ");
  }

  /** The summary is the route line and nothing more exactly when all four
      lists (icon buttons counted by their non-empty labels) are empty. */
  lemma SummaryBareIff(m: Metadata)
    ensures Summary(m) == RouteLine(m) <==>
      m.tableHeaders == [] && m.formLabels == [] && m.textButtons == [] && IconLabels(m.iconButtons) == []
  {
    SegmentShape("Table columns", m.tableHeaders);
    SegmentShape("Form fields", m.formLabels);
    SegmentShape("Visible buttons", m.textButtons);
    SegmentShape("Icon buttons", IconLabels(m.iconButtons));
    var a, b, c, d := Segment("Table columns", m.tableHeaders), Segment("Form fields", m.formLabels),
      Segment("Visible buttons", m.textButtons), Segment("Icon buttons", IconLabels(m.iconButtons));
    assert |Summary(m)| == |RouteLine(m)| + |a| + |b| + |c| + |d|;
  }

  /** Every summary begins with the route line. */
  lemma SummaryStartsWithRoute(m: Metadata)
    ensures |RouteLine(m)| <= |Summary(m)|
    ensures Summary(m)[..|RouteLine(m)|] == RouteLine(m)
  {
  }

  /** The segments come in a fixed order, one right after the other after
      the route line: columns, form fields, visible buttons, icon buttons. */
  lemma SegmentsInOrder(m: Metadata)
    ensures var r, a, b, c := RouteLine(m), Segment("Table columns", m.tableHeaders),
      Segment("Form fields", m.formLabels), Segment("Visible buttons", m.textButtons);
      && OccursAt(a, Summary(m), |r|)
      && OccursAt(b, Summary(m), |r| + |a|)
      && OccursAt(c, Summary(m), |r| + |a| + |b|)
      && OccursAt(Segment("Icon buttons", IconLabels(m.iconButtons)), Summary(m), |r| + |a| + |b| + |c|)
      && |r| + |a| + |b| + |c| + |Segment("Icon buttons", IconLabels(m.iconButtons))| == |Summary(m)|
  {
    PartsAt(RouteLine(m), Segment("Table columns", m.tableHeaders), Segment("Form fields", m.formLabels),
      Segment("Visible buttons", m.textButtons), Segment("Icon buttons", IconLabels(m.iconButtons)));
  }

  /** Every item of a listed segment is mentioned in it. */
  lemma SegmentMentions(name: string, items: seq<string>, i: nat)
    requires i < |items|
    ensures IsInfix(items[i], Segment(name, items))
  {
    JoinMentionsEach(items, ", ", i);
    InfixOfConcat(items[i], name + ": ", Join(items, ", "), ". ");
  }

  /** Everything the summary lists is mentioned in it: every column, every
      form field, every visible button and every non-empty icon label. */
  lemma SummaryMentions(m: Metadata, t: string)
    requires t in m.tableHeaders || t in m.formLabels || t in m.textButtons || t in IconLabels(m.iconButtons)
    ensures IsInfix(t, Summary(m))
  {
    var r, a, b, c, d := RouteLine(m), Segment("Table columns", m.tableHeaders), Segment("Form fields", m.formLabels),
      Segment("Visible buttons", m.textButtons), Segment("Icon buttons", IconLabels(m.iconButtons));
    if t in m.tableHeaders {
      var i :| 0 <= i < |m.tableHeaders| && m.tableHeaders[i] == t;
      SegmentMentions("Table columns", m.tableHeaders, i);
      InfixPrepend(t, r, a);
      InfixAppend(t, r + a, b);
      InfixAppend(t, r + a + b, c);
      InfixAppend(t, r + a + b + c, d);
    } else if t in m.formLabels {
      var i :| 0 <= i < |m.formLabels| && m.formLabels[i] == t;
      SegmentMentions("Form fields", m.formLabels, i);
      InfixPrepend(t, r + a, b);
      InfixAppend(t, r + a + b, c);
      InfixAppend(t, r + a + b + c, d);
    } else if t in m.textButtons {
      var i :| 0 <= i < |m.textButtons| && m.textButtons[i] == t;
      SegmentMentions("Visible buttons", m.textButtons, i);
      InfixPrepend(t, r + a + b, c);
      InfixAppend(t, r + a + b + c, d);
    } else {
      var labels := IconLabels(m.iconButtons);
      var i :| 0 <= i < |labels| && labels[i] == t;
      SegmentMentions("Icon buttons", labels, i);
      InfixPrepend(t, r + a + b + c, d);
    }
  }

  /** The prompt holds the summary right after its opening newline, then the
      question line after one more newline, then the instructions after one
      more, and nothing after them. */
  lemma PromptLayout(userMessage: string, m: Metadata)
    ensures OccursAt(Summary(m), BuildPrompt(userMessage, m), 1)
    ensures OccursAt(Question(userMessage), BuildPrompt(userMessage, m), |Summary(m)| + 2)
    ensures OccursAt(Instructions, BuildPrompt(userMessage, m), |Summary(m)| + |Question(userMessage)| + 3)
    ensures |BuildPrompt(userMessage, m)| == |Summary(m)| + |Question(userMessage)| + 3 + |Instructions|
    ensures IsInfix(Instructions, BuildPrompt(userMessage, m))
  {
    var s, q, n := Summary(m), Question(userMessage), "\n";
    OccursAfter(n, s);
    OccursAtAppend(s, n + s, 1, n);
    OccursAtAppend(s, n + s + n, 1, q);
    OccursAtAppend(s, n + s + n + q, 1, n);
    OccursAtAppend(s, n + s + n + q + n, 1, Instructions);
    OccursAfter(n + s + n, q);
    OccursAtAppend(q, n + s + n + q, |s| + 2, n);
    OccursAtAppend(q, n + s + n + q + n, |s| + 2, Instructions);
    OccursAfter(n + s + n + q + n, Instructions);
  }

  /** Whatever the summary mentions, the prompt mentions. */
  lemma SummaryInPrompt(sub: string, userMessage: string, m: Metadata)
    requires IsInfix(sub, Summary(m))
    ensures IsInfix(sub, BuildPrompt(userMessage, m))
  {
    var s, q, n := Summary(m), Question(userMessage), "\n";
    InfixPrepend(sub, n, s);
    InfixAppend(sub, n + s, n);
    InfixAppend(sub, n + s + n, q);
    InfixAppend(sub, n + s + n + q, n);
    InfixAppend(sub, n + s + n + q + n, Instructions);
  }

  /** From page to prompt: the aria-label of every button whose trimmed
      aria-label is non-empty reaches the model, trimmed, among the icon
      buttons. */
  lemma IconLabelReachesPrompt(userMessage: string, page: Page, i: nat)
    requires i < |page.elements| && page.elements[i].button && Trim(page.elements[i].ariaLabel) != ""
    ensures IsInfix(Trim(page.elements[i].ariaLabel), BuildPrompt(userMessage, ExtractUIMetadata(page)))
  {
    var m := ExtractUIMetadata(page);
    var t := Trim(page.elements[i].ariaLabel);
    IconMembers(page, IconButton(t));
    var k :| 0 <= k < |m.iconButtons| && m.iconButtons[k] == IconButton(t);
    FilterMapComplete(LabelOf, m.iconButtons, k);
    SummaryMentions(m, t);
    SummaryInPrompt(t, userMessage, m);
  }

  /** From page to prompt: the text of every button whose trimmed text is
      non-empty reaches the model, trimmed. */
  lemma ButtonTextReachesPrompt(userMessage: string, page: Page, i: nat)
    requires i < |page.elements| && page.elements[i].button && Trim(page.elements[i].innerText) != ""
    ensures IsInfix(Trim(page.elements[i].innerText), BuildPrompt(userMessage, ExtractUIMetadata(page)))
  {
    var m := ExtractUIMetadata(page);
    var t := Trim(page.elements[i].innerText);
    SnapshotMembers(page, t);
    SummaryMentions(m, t);
    SummaryInPrompt(t, userMessage, m);
  }
}

=== FILE: quotes.dfy ===
/** The first double-quoted span of a sentence, as the regular expression
    `/"([^"]+)"/` finds it: the leftmost `"` that is followed, after at least
    one non-quote character, by another `"`. */
module Quotes {
  import opened Options

  const Quote: char := '"'

  /** The regular expression matches at `i` with closing quote at `j`:
      both are quotes, nothing between them is, and there is something
      between them. */
  ghost predicate QuoteMatch(s: string, i: int, j: int) {
    0 <= i && i + 1 < j < |s| && s[i] == Quote && s[j] == Quote
    && forall k :: i < k < j ==> s[k] != Quote
  }

  /** Index of the first quote at or after `k`. */
  function NextQuote(s: string, k: nat): (r: Option<nat>)
    requires k <= |s|
    ensures r.Some? ==> k <= r.value < |s| && s[r.value] == Quote
    decreases |s| - k
  {
    if k == |s| then None
    else if s[k] == Quote then Some(k)
    else NextQuote(s, k + 1)
  }

  /** NextQuote skips no quote. */
  lemma {:induction false} NextQuoteSpec(s: string, k: nat)
    requires k <= |s|
    ensures NextQuote(s, k).Some? ==> forall m :: k <= m < NextQuote(s, k).value ==> s[m] != Quote
    ensures NextQuote(s, k).None? ==> forall m :: k <= m < |s| ==> s[m] != Quote
    decreases |s| - k
  {
    if k < |s| && s[k] != Quote {
      NextQuoteSpec(s, k + 1);
    }
  }

  /** The leftmost match whose opening quote is at or after `k`. */
  function FirstMatchFrom(s: string, k: nat): (r: Option<(nat, nat)>)
    requires k <= |s|
    ensures r.Some? ==> k <= r.value.0 && r.value.0 + 1 < r.value.1 < |s|
    decreases |s| - k
  {
    if k == |s| then None
    else if s[k] != Quote then FirstMatchFrom(s, k + 1)
    else
      match NextQuote(s, k + 1)
      case None => None
      case Some(j) =>
        if j == k + 1 then FirstMatchFrom(s, j)
        else Some((k, j))
  }

  /** FirstMatchFrom finds a match, and no match starts earlier; when it finds
      none there is none. */
  lemma {:induction false} FirstMatchFromSpec(s: string, k: nat)
    requires k <= |s|
    ensures var r := FirstMatchFrom(s, k);
      && (r.Some? ==> QuoteMatch(s, r.value.0, r.value.1))
      && (r.Some? ==> forall i, j :: k <= i < r.value.0 ==> !QuoteMatch(s, i, j))
      && (r.None? ==> forall i, j :: k <= i ==> !QuoteMatch(s, i, j))
    decreases |s| - k
  {
    if k == |s| {
    } else if s[k] != Quote {
      FirstMatchFromSpec(s, k + 1);
    } else {
      NextQuoteSpec(s, k + 1);
      match NextQuote(s, k + 1)
      case None =>
      case Some(j) =>
        if j == k + 1 {
          FirstMatchFromSpec(s, j);
        }
    }
  }

  /** The captured group of `s.match(/"([^"]+)"/)`, or None when it does not
      match. */
  function FirstQuoted(s: string): Option<string> {
    match FirstMatchFrom(s, 0)
    case None => None
    case Some((i, j)) => Some(s[i + 1..j])
  }

  /** The span FirstQuoted finds is exactly the regular expression's match:
      there is none when no quote pair encloses a non-empty quote-free text;
      otherwise it is the text enclosed by the pair whose opening quote is
      leftmost, so it is never empty and never contains a quote. */
  lemma FirstQuotedSpec(s: string)
    ensures FirstQuoted(s).None? <==> forall i, j :: !QuoteMatch(s, i, j)
    ensures FirstQuoted(s).Some? ==> exists i, j ::
      QuoteMatch(s, i, j) && FirstQuoted(s).value == s[i + 1..j]
      && forall i', j' :: QuoteMatch(s, i', j') ==> i <= i'
    ensures FirstQuoted(s).Some? ==> FirstQuoted(s).value != "" && Quote !in FirstQuoted(s).value
  {
    FirstMatchFromSpec(s, 0);
    match FirstMatchFrom(s, 0)
    case None =>
    case Some((i, j)) =>
      assert forall i', j' :: QuoteMatch(s, i', j') ==> i <= i';
      var span := s[i + 1..j];
      assert forall m :: 0 <= m < |span| ==> span[m] == s[i + 1 + m];
  }
}

=== FILE: seqs.dfy ===
/** Sequence combinators shared by the parser, the snapshot extractor, the tour
    and the prompt builder: the `map`/`filter` pipelines and the `find` of the
    JavaScript code, each defined once with its specification. */
module Seqs {
  import opened Options

  /** `xs.map(f).filter(Boolean)` in one pass: keep `y` for each `f(x) == Some(y)`,
      in order. */
  function FilterMap<A, B>(f: A -> Option<B>, s: seq<A>): (r: seq<B>)
    ensures |r| <= |s|
  {
    if s == [] then []
    else
      var rest := FilterMap(f, s[1..]);
      match f(s[0])
      case Some(y) => [y] + rest
      case None => rest
  }

  /** Every output of FilterMap is `f` of some input. */
  lemma {:induction false} FilterMapSound<A, B>(f: A -> Option<B>, s: seq<A>, k: nat)
    requires k < |FilterMap(f, s)|
    ensures exists i :: 0 <= i < |s| && f(s[i]) == Some(FilterMap(f, s)[k])
    decreases |s|
  {
    var r, rest := FilterMap(f, s), FilterMap(f, s[1..]);
    if f(s[0]).Some? && k == 0 {
      assert f(s[0]) == Some(r[k]);
    } else {
      var k' := if f(s[0]).Some? then k - 1 else k;
      assert r[k] == rest[k'];
      FilterMapSound(f, s[1..], k');
      var i :| 0 <= i < |s[1..]| && f(s[1..][i]) == Some(rest[k']);
      assert s[1..][i] == s[i + 1];
    }
  }

  /** Every value `f` produces on an input is in FilterMap's output. */
  lemma {:induction false} FilterMapComplete<A, B>(f: A -> Option<B>, s: seq<A>, i: nat)
    requires i < |s| && f(s[i]).Some?
    ensures f(s[i]).value in FilterMap(f, s)
    decreases i
  {
    if i > 0 {
      assert s[i] == s[1..][i - 1];
      FilterMapComplete(f, s[1..], i - 1);
    }
  }

  /** Membership in FilterMap's output, as one equivalence. */
  lemma FilterMapIn<A, B>(f: A -> Option<B>, s: seq<A>, y: B)
    ensures y in FilterMap(f, s) <==> exists i :: 0 <= i < |s| && f(s[i]) == Some(y)
  {
    var r := FilterMap(f, s);
    if y in r {
      var k :| 0 <= k < |r| && r[k] == y;
      FilterMapSound(f, s, k);
    }
    if exists i :: 0 <= i < |s| && f(s[i]) == Some(y) {
      var i :| 0 <= i < |s| && f(s[i]) == Some(y);
      FilterMapComplete(f, s, i);
    }
  }

  lemma AppendAssoc<T>(x: seq<T>, y: seq<T>, z: seq<T>)
    ensures (x + y) + z == x + (y + z)
  {
  }

  /** FilterMap is a homomorphism from concatenation to concatenation: filtering
      two halves separately and joining gives the filtering of the whole, so
      the output keeps the input's order. */
  lemma {:induction false} FilterMapAppend<A, B>(f: A -> Option<B>, s: seq<A>, t: seq<A>)
    ensures FilterMap(f, s + t) == FilterMap(f, s) + FilterMap(f, t)
    decreases |s|
  {
    if s == [] {
      assert s + t == t;
    } else {
      assert (s + t)[1..] == s[1..] + t;
      FilterMapAppend(f, s[1..], t);
    }
  }

  /** On one element FilterMap keeps exactly what `f` produces. With
      FilterMapAppend this determines FilterMap completely. */
  lemma FilterMapSingle<A, B>(f: A -> Option<B>, x: A)
    ensures FilterMap(f, [x]) == match f(x) case Some(y) => [y] case None => []
  {
  }

  /** A sequence is its prefix before `k`, its `k`-th element and the rest. */
  lemma SpliceAt<T>(s: seq<T>, k: nat)
    requires k < |s|
    ensures s == s[..k] + [s[k]] + s[k + 1..]
  {
    assert s[..k + 1] == s[..k] + [s[k]];
    assert s == s[..k + 1] + s[k + 1..];
  }

  /** `xs.findIndex(p)`: the index of the first element satisfying `p`. */
  function FirstIndex<A>(p: A -> bool, s: seq<A>): (r: Option<nat>)
    ensures r.Some? ==> r.value < |s| && p(s[r.value])
  {
    if s == [] then None
    else if p(s[0]) then Some(0)
    else
      match FirstIndex(p, s[1..])
      case None => None
      case Some(i) => Some(i + 1)
  }

  /** FirstIndex finds the first satisfying element, and finds none exactly
      when no element satisfies `p`. */
  lemma {:induction false} FirstIndexSpec<A>(p: A -> bool, s: seq<A>)
    ensures FirstIndex(p, s).Some? ==> forall j :: 0 <= j < FirstIndex(p, s).value ==> !p(s[j])
    ensures FirstIndex(p, s).None? <==> forall j :: 0 <= j < |s| ==> !p(s[j])
    decreases |s|
  {
    if s != [] && !p(s[0]) {
      FirstIndexSpec(p, s[1..]);
      assert forall j :: 0 < j < |s| ==> s[j] == s[1..][j - 1];
    }
  }

  /** FirstIndex is `k` when `s[k]` is the first element satisfying `p`. */
  lemma FirstIndexIs<A>(p: A -> bool, s: seq<A>, k: nat)
    requires k < |s| && p(s[k])
    requires forall j :: 0 <= j < k ==> !p(s[j])
    ensures FirstIndex(p, s) == Some(k)
  {
    FirstIndexSpec(p, s);
  }
}

=== FILE: steps.dfy ===
/** The best-effort conversion of a free-text assistant reply into tour steps
    (`parsePlainTextSteps`): split on periods, trim, drop empty sentences, and
    for each sentence emit a click step and/or a fill step whose target is the
    sentence's first double-quoted span, numbered in emission order. */
module StepParser {
  import opened Options
  import opened Seqs
  import opened Text
  import opened Quotes

  /** The `action` field of a step: the strings "click" and "fill", or any
      other string a structured reply may carry. */
  datatype Action = Click | Fill | OtherAction(name: string)

  /** An `action` string as the tour reads it: only the exact strings
      "click" and "fill" are actions it knows. */
  function ActionOf(name: string): (a: Action)
    ensures a == Click <==> name == "click"
    ensures a == Fill <==> name == "fill"
    ensures a.OtherAction? ==> a.name == name
  {
    if name == "click" then Click else if name == "fill" then Fill else OtherAction(name)
  }

  /** The string an action stands for. */
  function ActionName(a: Action): string {
    match a
    case Click => "click"
    case Fill => "fill"
    case OtherAction(name) => name
  }

  /** `OtherAction` never stands for "click" or "fill". */
  predicate WellFormedAction(a: Action) {
    a.OtherAction? ==> a.name != "click" && a.name != "fill"
  }

  /** Reading a string and writing it back are inverse, and every action read
      from a string is well formed. */
  lemma ActionRoundTrip(a: Action, name: string)
    ensures WellFormedAction(a) ==> ActionOf(ActionName(a)) == a
    ensures ActionName(ActionOf(name)) == name
    ensures WellFormedAction(ActionOf(name))
  {
  }

  /** One step object `{step, action, targetText | targetLabel}`. A field the
      object does not carry is the empty string: click steps have no label,
      fill steps no target text. */
  datatype Step = Step(step: int, action: Action, targetText: string, targetLabel: string)

  /** The shape every step the parser emits has: a click with a non-empty,
      quote-free target text, or a fill with a non-empty, quote-free label. */
  predicate IsParsedStep(st: Step) {
    || (st.action == Click && st.targetText != "" && Quote !in st.targetText && st.targetLabel == "")
    || (st.action == Fill && st.targetLabel != "" && Quote !in st.targetLabel && st.targetText == "")
  }

  /** The sentences of a reply: the pieces between periods, trimmed, with
      empty ones dropped. A period inside quotes splits like any other. */
  function Sentences(text: string): seq<string> {
    FilterMap(NonEmptyTrimmed, Split(text, '.'))
  }

  /** Every sentence is non-empty, free of periods and already trimmed. */
  lemma SentencesSpec(text: string)
    ensures forall i :: 0 <= i < |Sentences(text)| ==>
      Sentences(text)[i] != "" && '.' !in Sentences(text)[i] && Trim(Sentences(text)[i]) == Sentences(text)[i]
  {
    var pieces := Split(text, '.');
    var r := Sentences(text);
    forall i | 0 <= i < |r| ensures r[i] != "" && '.' !in r[i] && Trim(r[i]) == r[i] {
      FilterMapSound(NonEmptyTrimmed, pieces, i);
      var k :| 0 <= k < |pieces| && NonEmptyTrimmed(pieces[k]) == Some(r[i]);
      TrimKeepsAbsent(pieces[k], '.');
      TrimIdempotent(pieces[k]);
    }
  }

  /** The keyword tests of `parsePlainTextSteps`, on the lower-cased sentence: plain
      substring tests, so "clicking" mentions a click and "center" an entry. */
  predicate MentionsClick(sent: string) {
    Contains(Lower(sent), "click")
  }

  predicate MentionsFill(sent: string) {
    Contains(Lower(sent), "fill") || Contains(Lower(sent), "enter")
  }

  /** One `forEach` iteration: push a click step if the sentence mentions a
      click and has a quoted span, then, independently, a fill step if it
      mentions fill/enter and has one; each step is numbered
      `steps.length + 1` at the moment it is pushed. */
  function PushSentenceSteps(steps: seq<Step>, sent: string): seq<Step> {
    PushSteps(steps, MentionsClick(sent), MentionsFill(sent), FirstQuoted(sent))
  }

  /** The iteration body given the three facts it tests about the sentence. */
  function PushSteps(steps: seq<Step>, click: bool, fill: bool, quoted: Option<string>): seq<Step> {
    var afterClick :=
      if click && quoted.Some?
      then steps + [Step(|steps| + 1, Click, quoted.value, "")]
      else steps;
    if fill && quoted.Some?
    then afterClick + [Step(|afterClick| + 1, Fill, "", quoted.value)]
    else afterClick
  }

  function ParseSentences(steps: seq<Step>, sents: seq<string>): seq<Step>
    decreases |sents|
  {
    if sents == [] then steps
    else ParseSentences(PushSentenceSteps(steps, sents[0]), sents[1..])
  }

  // Reference definition: what each sentence asks for, and a separate numbering.

  /** What one sentence asks for, before numbering. */
  datatype Intent = ClickIntent(target: string) | FillIntent(field: string)

  function IntentTarget(intent: Intent): string {
    match intent
    case ClickIntent(t) => t
    case FillIntent(f) => f
  }

  function ToStep(intent: Intent, n: int): Step {
    match intent
    case ClickIntent(t) => Step(n, Click, t, "")
    case FillIntent(f) => Step(n, Fill, "", f)
  }

  /** The intents of one sentence. */
  function Intents(sent: string): seq<Intent> {
    IntentsOf(MentionsClick(sent), MentionsFill(sent), FirstQuoted(sent))
  }

  /** What a sentence yields: at most one click and at most one fill, the
      click first; each is present exactly when its keyword is mentioned and
      the sentence has a quoted span, and both name that span. In particular a
      sentence that mentions a click but has no quoted span yields nothing,
      and one that mentions both keywords yields a click and a fill on the
      same text. */
  lemma IntentsSpec(sent: string)
    ensures forall k :: 0 <= k < |Intents(sent)| ==> FirstQuoted(sent) == Some(IntentTarget(Intents(sent)[k]))
    ensures (exists k :: 0 <= k < |Intents(sent)| && Intents(sent)[k].ClickIntent?) <==> MentionsClick(sent) && FirstQuoted(sent).Some?
    ensures (exists k :: 0 <= k < |Intents(sent)| && Intents(sent)[k].FillIntent?) <==> MentionsFill(sent) && FirstQuoted(sent).Some?
    ensures forall k, l :: 0 <= k < l < |Intents(sent)| ==> Intents(sent)[k].ClickIntent? && Intents(sent)[l].FillIntent?
  {
    var r := IntentsOf(MentionsClick(sent), MentionsFill(sent), FirstQuoted(sent));
    assert Intents(sent) == r;
    IntentsOfFacts(MentionsClick(sent), MentionsFill(sent), FirstQuoted(sent));
  }

  function IntentsOf(click: bool, fill: bool, quoted: Option<string>): (r: seq<Intent>)
  {
    match quoted
    case None => []
    case Some(t) =>
      (if click then [ClickIntent(t)] else []) + (if fill then [FillIntent(t)] else [])
  }

  lemma IntentsOfFacts(click: bool, fill: bool, quoted: Option<string>)
    ensures forall k :: 0 <= k < |IntentsOf(click, fill, quoted)| ==> quoted == Some(IntentTarget(IntentsOf(click, fill, quoted)[k]))
    ensures (exists k :: 0 <= k < |IntentsOf(click, fill, quoted)| && IntentsOf(click, fill, quoted)[k].ClickIntent?) <==> click && quoted.Some?
    ensures (exists k :: 0 <= k < |IntentsOf(click, fill, quoted)| && IntentsOf(click, fill, quoted)[k].FillIntent?) <==> fill && quoted.Some?
    ensures forall k, l :: 0 <= k < l < |IntentsOf(click, fill, quoted)| ==>
      IntentsOf(click, fill, quoted)[k].ClickIntent? && IntentsOf(click, fill, quoted)[l].FillIntent?
  {
    var r := IntentsOf(click, fill, quoted);
    if quoted.Some? {
      assert click ==> r[0].ClickIntent?;
      assert fill ==> r[|r| - 1].FillIntent?;
    }
  }

  function AllIntents(sents: seq<string>): seq<Intent> {
    if sents == [] then [] else Intents(sents[0]) + AllIntents(sents[1..])
  }

  /** The intents as steps numbered `first`, `first + 1`, ... */
  function Numbered(intents: seq<Intent>, first: int): (r: seq<Step>)
    ensures |r| == |intents|
  {
    if intents == [] then []
    else [ToStep(intents[0], first)] + Numbered(intents[1..], first + 1)
  }

  lemma {:induction false} NumberedAt(intents: seq<Intent>, first: int, i: nat)
    requires i < |intents|
    ensures Numbered(intents, first)[i] == ToStep(intents[i], first + i)
    decreases i
  {
    if i > 0 {
      NumberedAt(intents[1..], first + 1, i - 1);
    }
  }

  lemma {:induction false} NumberedAppend(a: seq<Intent>, b: seq<Intent>, first: int)
    ensures Numbered(a + b, first) == Numbered(a, first) + Numbered(b, first + |a|)
    decreases |a|
  {
    if a == [] {
      assert a + b == b;
    } else {
      assert (a + b)[1..] == a[1..] + b;
      NumberedAppend(a[1..], b, first + 1);
    }
  }

  /** One iteration of the parser's `forEach` appends exactly the sentence's
      intents, numbered on from the steps already pushed. */
  lemma PushSentenceMatchesIntents(steps: seq<Step>, sent: string)
    ensures PushSentenceSteps(steps, sent) == steps + Numbered(Intents(sent), |steps| + 1)
  {
    PushStepsMatchesIntents(steps, MentionsClick(sent), MentionsFill(sent), FirstQuoted(sent));
  }

  lemma NumberedOne(x: Intent, n: int)
    ensures Numbered([x], n) == [ToStep(x, n)]
  {
    assert [x][1..] == [];
  }

  lemma NumberedTwo(x: Intent, y: Intent, n: int)
    ensures Numbered([x, y], n) == [ToStep(x, n), ToStep(y, n + 1)]
  {
    assert [x, y][1..] == [y];
    NumberedOne(y, n + 1);
  }

  lemma PushStepsBoth(steps: seq<Step>, t: string)
    ensures PushSteps(steps, true, true, Some(t))
         == steps + [Step(|steps| + 1, Click, t, ""), Step(|steps| + 2, Fill, "", t)]
  {
  }

  lemma PushStepsMatchesIntents(steps: seq<Step>, click: bool, fill: bool, quoted: Option<string>)
    ensures PushSteps(steps, click, fill, quoted) == steps + Numbered(IntentsOf(click, fill, quoted), |steps| + 1)
  {
    var n := |steps| + 1;
    match quoted
    case None =>
      assert steps + [] == steps;
    case Some(t) =>
      if click && fill {
        assert IntentsOf(click, fill, quoted) == [ClickIntent(t), FillIntent(t)];
        NumberedTwo(ClickIntent(t), FillIntent(t), n);
        PushStepsBoth(steps, t);
      } else if click {
        NumberedOne(ClickIntent(t), n);
      } else if fill {
        NumberedOne(FillIntent(t), n);
      } else {
        assert steps + [] == steps;
      }
  }

  /** Numbering `here` after `steps` and then `rest` after both is numbering
      `here + rest` after `steps`. */
  lemma NumberedGlue(steps: seq<Step>, here: seq<Intent>, rest: seq<Intent>)
    ensures var next := steps + Numbered(here, |steps| + 1);
      next + Numbered(rest, |next| + 1) == steps + Numbered(here + rest, |steps| + 1)
  {
    var a, b := Numbered(here, |steps| + 1), Numbered(rest, |steps| + |here| + 1);
    NumberedAppend(here, rest, |steps| + 1);
    AppendAssoc(steps, a, b);
  }

  lemma {:induction false} ParseSentencesMatchesIntents(steps: seq<Step>, sents: seq<string>)
    ensures ParseSentences(steps, sents) == steps + Numbered(AllIntents(sents), |steps| + 1)
    decreases |sents|
  {
    if sents != [] {
      var next := PushSentenceSteps(steps, sents[0]);
      PushSentenceMatchesIntents(steps, sents[0]);
      ParseSentencesMatchesIntents(next, sents[1..]);
      NumberedGlue(steps, Intents(sents[0]), AllIntents(sents[1..]));
    }
  }

  /** `parsePlainTextSteps(text)`. Its steps are numbered 1..n with no gap,
      whatever number of sentences yield nothing, they are the sentences'
      intents in sentence order, and each is a well-formed click or fill. */
  function ParsePlainTextSteps(text: string): (r: seq<Step>)
    ensures r == Numbered(AllIntents(Sentences(text)), 1)
    ensures forall i :: 0 <= i < |r| ==> r[i].step == i + 1
    ensures forall i :: 0 <= i < |r| ==> IsParsedStep(r[i])
  {
    ParseSentencesMatchesIntents([], Sentences(text));
    NumberedShape(Sentences(text));
    ParseSentences([], Sentences(text))
  }

  lemma NumberedShape(sents: seq<string>)
    ensures forall i :: 0 <= i < |Numbered(AllIntents(sents), 1)| ==> Numbered(AllIntents(sents), 1)[i].step == i + 1
    ensures forall i :: 0 <= i < |Numbered(AllIntents(sents), 1)| ==> IsParsedStep(Numbered(AllIntents(sents), 1)[i])
  {
    var intents := AllIntents(sents);
    var r := Numbered(intents, 1);
    forall i | 0 <= i < |r| ensures r[i].step == i + 1 && IsParsedStep(r[i]) {
      IntentOfSomeSentence(sents, i);
      var j :| 0 <= j < |sents| && IntentFrom(intents[i], sents[j]);
      FirstQuotedSpec(sents[j]);
      NumberedAt(intents, 1, i);
    }
  }

  /** `intent` is one the sentence `sent` asks for. */
  predicate IntentFrom(intent: Intent, sent: string) {
    && FirstQuoted(sent) == Some(IntentTarget(intent))
    && (intent.ClickIntent? ==> MentionsClick(sent))
    && (intent.FillIntent? ==> MentionsFill(sent))
  }

  /** Every intent of a list of sentences comes from one of them and names that
      sentence's first quoted span. */
  lemma {:induction false} IntentOfSomeSentence(sents: seq<string>, i: nat)
    requires i < |AllIntents(sents)|
    ensures exists j :: 0 <= j < |sents| && IntentFrom(AllIntents(sents)[i], sents[j])
    decreases |sents|
  {
    var here := Intents(sents[0]);
    if i < |here| {
      IntentsSpec(sents[0]);
      assert AllIntents(sents)[i] == here[i];
    } else {
      assert AllIntents(sents)[i] == AllIntents(sents[1..])[i - |here|];
      IntentOfSomeSentence(sents[1..], i - |here|);
      var j :| 0 <= j < |sents[1..]| && IntentFrom(AllIntents(sents)[i], sents[1..][j]);
      assert sents[1..][j] == sents[j + 1];
    }
  }

  /** The intents of consecutive runs of sentences follow one another. */
  lemma {:induction false} AllIntentsAppend(a: seq<string>, b: seq<string>)
    ensures AllIntents(a + b) == AllIntents(a) + AllIntents(b)
    decreases |a|
  {
    if a == [] {
      assert a + b == b;
    } else {
      assert (a + b)[0] == a[0];
      assert (a + b)[1..] == a[1..] + b;
      AllIntentsAppend(a[1..], b);
      AppendAssoc(Intents(a[0]), AllIntents(a[1..]), AllIntents(b));
    }
  }

  /** Output order follows sentence order: the steps of later sentences come
      after those of earlier ones, numbered on from where those stopped. */
  lemma SentenceOrder(a: seq<string>, b: seq<string>)
    ensures Numbered(AllIntents(a + b), 1) ==
      Numbered(AllIntents(a), 1) + Numbered(AllIntents(b), |AllIntents(a)| + 1)
  {
    AllIntentsAppend(a, b);
    NumberedAppend(AllIntents(a), AllIntents(b), 1);
  }

  /** A sentence yields something exactly when it mentions a click or a
      fill/enter and has a quoted span. */
  lemma IntentsNonEmptyIff(sent: string)
    ensures Intents(sent) != [] <==> Yields(sent)
  {
  }

  predicate Yields(sent: string) {
    FirstQuoted(sent).Some? && (MentionsClick(sent) || MentionsFill(sent))
  }

  /** A list of sentences yields no intent exactly when none of its sentences
      yields one. */
  lemma {:induction false} AllIntentsEmptyIff(sents: seq<string>)
    ensures AllIntents(sents) == [] <==> forall j :: 0 <= j < |sents| ==> !Yields(sents[j])
    decreases |sents|
  {
    if sents != [] {
      AllIntentsEmptyIff(sents[1..]);
      IntentsNonEmptyIff(sents[0]);
      assert forall j :: 0 < j < |sents| ==> sents[j] == sents[1..][j - 1];
    }
  }

  /** `parsePlainTextSteps` returns no step exactly when no sentence of the
      text mentions a click or a fill/enter together with a quoted span. */
  lemma ParsedStepsEmptyIff(text: string)
    ensures ParsePlainTextSteps(text) == [] <==>
      forall j :: 0 <= j < |Sentences(text)| ==> !Yields(Sentences(text)[j])
  {
    AllIntentsEmptyIff(Sentences(text));
  }

  /** Keyword tests are raw substring tests on the lower-cased sentence: a
      keyword anywhere, inside a longer word or in any letter case, counts.
      So "clicking" mentions a click and "center" mentions an entry. */
  lemma KeywordAnywhere(p: string, q: string)
    ensures MentionsClick(p + "click" + q) && MentionsClick(p + "CLICK" + q)
    ensures MentionsFill(p + "fill" + q) && MentionsFill(p + "enter" + q)
  {
    KeywordIn(p, "click", "click", q);
    KeywordIn(p, "CLICK", "click", q);
    KeywordIn(p, "fill", "fill", q);
    KeywordIn(p, "enter", "enter", q);
  }

  lemma KeywordIn(p: string, w: string, lw: string, q: string)
    requires Lower(w) == lw
    ensures Contains(Lower(p + w + q), lw)
  {
    LowerAppend3(p, w, q);
    InfixOfSelf(lw);
    InfixOfConcat(lw, Lower(p), lw, Lower(q));
    ContainsSpec(Lower(p + w + q), lw);
  }

  /** A quoted span that contains a period is cut by the sentence split, so
      no step target ever contains a period. */
  lemma TargetsHaveNoPeriod(text: string)
    ensures forall i :: 0 <= i < |ParsePlainTextSteps(text)| ==>
      '.' !in ParsePlainTextSteps(text)[i].targetText && '.' !in ParsePlainTextSteps(text)[i].targetLabel
  {
    var sents := Sentences(text);
    var intents := AllIntents(sents);
    var r := ParsePlainTextSteps(text);
    SentencesSpec(text);
    forall i | 0 <= i < |r| ensures '.' !in r[i].targetText && '.' !in r[i].targetLabel {
      IntentOfSomeSentence(sents, i);
      var j :| 0 <= j < |sents| && IntentFrom(intents[i], sents[j]);
      QuotedIsPart(sents[j]);
      NumberedAt(intents, 1, i);
    }
  }

  /** The quoted span is a slice of its sentence. */
  lemma QuotedIsPart(s: string)
    requires FirstQuoted(s).Some?
    ensures forall c :: c in FirstQuoted(s).value ==> c in s
  {
    FirstQuotedSpec(s);
  }
}

=== FILE: text.dfy ===
/** The JavaScript string primitives the core relies on, written out:
    `String.prototype.trim`, `toLowerCase` (ASCII only), `includes`,
    `split` on one character, `Array.prototype.join`, and the decimal
    rendering a template literal applies to an integer. */
module Text {
  import opened Options

  /** The characters `trim` removes: ECMAScript WhiteSpace (tab, vertical tab,
      form feed, space, no-break space, byte order mark and the Unicode Zs
      category) and LineTerminator (LF, CR, U+2028, U+2029). */
  predicate IsWhitespace(c: char) {
    var n := c as int;
    n == 0x09 || n == 0x0A || n == 0x0B || n == 0x0C || n == 0x0D || n == 0x20
    || n == 0xA0 || n == 0x1680 || (0x2000 <= n <= 0x200A) || n == 0x2028
    || n == 0x2029 || n == 0x202F || n == 0x205F || n == 0x3000 || n == 0xFEFF
  }

  ghost predicate AllWhitespace(s: string) {
    forall i :: 0 <= i < |s| ==> IsWhitespace(s[i])
  }

  /** A string `trim` leaves unchanged: it neither starts nor ends with whitespace. */
  ghost predicate IsTrimmed(s: string) {
    s == [] || (!IsWhitespace(s[0]) && !IsWhitespace(s[|s| - 1]))
  }

  /** Number of leading whitespace characters. */
  function LeadingWhitespace(s: string): (n: nat)
    ensures n <= |s| && AllWhitespace(s[..n])
    ensures n < |s| ==> !IsWhitespace(s[n])
  {
    if s == [] || !IsWhitespace(s[0]) then 0
    else
      var n := 1 + LeadingWhitespace(s[1..]);
      assert forall i :: 0 < i < n ==> s[..n][i] == s[1..][..n - 1][i - 1];
      n
  }

  /** Index just past the last non-whitespace character. */
  function TrailingStart(s: string): (n: nat)
    ensures n <= |s| && AllWhitespace(s[n..])
    ensures 0 < n ==> !IsWhitespace(s[n - 1])
  {
    if s == [] || !IsWhitespace(s[|s| - 1]) then |s|
    else
      var n := TrailingStart(s[..|s| - 1]);
      assert forall i :: n <= i < |s| - 1 ==> s[i] == s[..|s| - 1][i];
      n
  }

  /** `s.trim()`: the slice of `s` left after removing whitespace at both ends. */
  function Trim(s: string): string {
    var i := LeadingWhitespace(s);
    if i == |s| then [] else s[i..TrimEnd(s, i)]
  }

  /** TrailingStart, known to lie after a non-whitespace position `i`. */
  function TrimEnd(s: string, i: nat): (j: nat)
    requires i < |s| && !IsWhitespace(s[i])
    ensures i < j <= |s|
  {
    var j := TrailingStart(s);
    assert AllWhitespace(s[j..]);
    assert i < j;
    j
  }

  lemma AllWhitespaceAppend(a: string, b: string)
    requires AllWhitespace(a) && AllWhitespace(b)
    ensures AllWhitespace(a + b)
  {
    forall i | 0 <= i < |a + b| ensures IsWhitespace((a + b)[i]) {
      if i >= |a| {
        assert (a + b)[i] == b[i - |a|];
      }
    }
  }

  /** What Trim returns: a slice of `s` with only whitespace cut off on each
      side, which itself neither starts nor ends with whitespace. */
  lemma TrimSpec(s: string)
    ensures exists i, j :: 0 <= i <= j <= |s| && Trim(s) == s[i..j] && AllWhitespace(s[..i]) && AllWhitespace(s[j..])
    ensures IsTrimmed(Trim(s))
  {
    var i := LeadingWhitespace(s);
    if i == |s| {
      assert s[i..i] == [] && s[i..] == [];
    } else {
      var j := TrimEnd(s, i);
      assert Trim(s) == s[i..j];
    }
  }

  lemma {:induction false} LeadingWhitespaceOfPadded(a: string, m: string)
    requires AllWhitespace(a)
    requires m == [] || !IsWhitespace(m[0])
    ensures LeadingWhitespace(a + m) == |a|
    decreases |a|
  {
    if a != [] {
      assert (a + m)[0] == a[0];
      assert (a + m)[1..] == a[1..] + m;
      LeadingWhitespaceOfPadded(a[1..], m);
    } else {
      assert a + m == m;
    }
  }

  lemma {:induction false} TrailingStartOfPadded(m: string, b: string)
    requires AllWhitespace(b)
    requires m == [] || !IsWhitespace(m[|m| - 1])
    ensures TrailingStart(m + b) == |m|
    decreases |b|
  {
    if b != [] {
      assert (m + b)[..|m + b| - 1] == m + b[..|b| - 1];
      TrailingStartOfPadded(m, b[..|b| - 1]);
    } else {
      assert m + b == m;
    }
  }

  /** Trim is fully characterised: whatever whitespace surrounds a trimmed
      core, trimming gives back exactly that core. */
  lemma TrimOfPadded(a: string, m: string, b: string)
    requires AllWhitespace(a) && AllWhitespace(b) && IsTrimmed(m)
    ensures Trim(a + m + b) == m
  {
    var s := a + m + b;
    if m == [] {
      assert s == a + b;
      assert AllWhitespace(s) by {
        forall i | 0 <= i < |s| ensures IsWhitespace(s[i]) {
          if i < |a| { assert s[i] == a[i]; } else { assert s[i] == b[i - |a|]; }
        }
      }
    } else {
      assert s == a + (m + b);
      LeadingWhitespaceOfPadded(a, m + b);
      assert s == (a + m) + b;
      TrailingStartOfPadded(a + m, b);
      assert s[|a|..|a| + |m|] == m;
    }
  }

  /** A string with no whitespace at either end is its own trim. */
  lemma TrimmedIsFixed(s: string)
    requires IsTrimmed(s)
    ensures Trim(s) == s
  {
    TrimOfPadded([], s, []);
    assert [] + s + [] == s;
  }

  /** Trimming twice is trimming once. */
  lemma TrimIdempotent(s: string)
    ensures Trim(Trim(s)) == Trim(s)
  {
    TrimSpec(s);
    TrimmedIsFixed(Trim(s));
  }

  /** `Trim(s)`, or None when that is empty: the `.map(trim).filter(Boolean)`
      step of the sentence splitter. */
  function NonEmptyTrimmed(s: string): Option<string> {
    var t := Trim(s);
    if t == "" then None else Some(t)
  }

  /** ASCII case folding: `toLowerCase` on the characters A-Z. */
  function LowerChar(c: char): char {
    if 'A' <= c <= 'Z' then (c as int + 32) as char else c
  }

  /** `s.toLowerCase()`, folding only A-Z. */
  function Lower(s: string): (r: string)
    ensures |r| == |s|
  {
    if s == [] then [] else [LowerChar(s[0])] + Lower(s[1..])
  }

  lemma {:induction false} LowerAt(s: string, i: nat)
    requires i < |s|
    ensures Lower(s)[i] == LowerChar(s[i])
    decreases i
  {
    if i > 0 {
      LowerAt(s[1..], i - 1);
    }
  }

  /** Lower-casing is idempotent. */
  lemma {:induction false} LowerIdempotent(s: string)
    ensures Lower(Lower(s)) == Lower(s)
    decreases |s|
  {
    if s != [] {
      LowerIdempotent(s[1..]);
      assert Lower(s)[1..] == Lower(s[1..]);
    }
  }

  lemma {:induction false} LowerAppend(a: string, b: string)
    ensures Lower(a + b) == Lower(a) + Lower(b)
    decreases |a|
  {
    if a == [] {
      assert a + b == b;
    } else {
      assert (a + b)[1..] == a[1..] + b;
      LowerAppend(a[1..], b);
    }
  }

  lemma LowerKeepsWhitespace(s: string)
    ensures AllWhitespace(s) ==> AllWhitespace(Lower(s))
    ensures IsTrimmed(s) ==> IsTrimmed(Lower(s))
  {
    forall i | 0 <= i < |s| ensures IsWhitespace(Lower(s)[i]) <==> IsWhitespace(s[i]) {
      LowerAt(s, i);
    }
  }

  /** Case folding touches no whitespace, so it commutes with trimming. */
  lemma LowerAppend3(a: string, t: string, b: string)
    ensures Lower(a + t + b) == Lower(a) + Lower(t) + Lower(b)
  {
    LowerAppend(a + t, b);
    LowerAppend(a, t);
  }

  /** The cut points of Trim, as a lemma with out-parameters. */
  lemma TrimCuts(s: string) returns (i: nat, j: nat)
    ensures i <= j <= |s| && Trim(s) == s[i..j]
    ensures AllWhitespace(s[..i]) && AllWhitespace(s[j..]) && IsTrimmed(s[i..j])
  {
    TrimSpec(s);
    i, j :| 0 <= i <= j <= |s| && Trim(s) == s[i..j] && AllWhitespace(s[..i]) && AllWhitespace(s[j..]);
  }

  /** `!s.trim()`: trimming leaves nothing exactly when the string is all
      whitespace (the empty string included). */
  lemma TrimEmptyIff(s: string)
    ensures Trim(s) == "" <==> AllWhitespace(s)
  {
    var i, j := TrimCuts(s);
    if Trim(s) == "" {
      assert s == s[..i] + s[j..];
      AllWhitespaceAppend(s[..i], s[j..]);
    }
    if AllWhitespace(s) {
      assert s + [] + [] == s;
      TrimOfPadded(s, [], []);
    }
  }

  /** Regrouping a five-part concatenation. */
  lemma Regroup(a: seq, l: seq, t: seq, r: seq, b: seq)
    ensures a + (l + t + r) + b == (a + l) + t + (r + b)
  {
  }

  /** Whitespace added around a string is trimmed away with its own. */
  lemma TrimOfPaddedAny(a: string, s: string, b: string)
    requires AllWhitespace(a) && AllWhitespace(b)
    ensures Trim(a + s + b) == Trim(s)
  {
    var i, j := TrimCuts(s);
    var l, t, r := s[..i], s[i..j], s[j..];
    assert s == l + t + r;
    AllWhitespaceAppend(a, l);
    AllWhitespaceAppend(r, b);
    Regroup(a, l, t, r, b);
    TrimOfPadded(a + l, t, r + b);
  }

  lemma LowerTrimCommute(s: string)
    ensures Trim(Lower(s)) == Lower(Trim(s))
  {
    var i, j := TrimCuts(s);
    var a, t, b := s[..i], s[i..j], s[j..];
    assert s == a + t + b;
    LowerAppend3(a, t, b);
    LowerKeepsWhitespace(a);
    LowerKeepsWhitespace(t);
    LowerKeepsWhitespace(b);
    TrimOfPadded(Lower(a), Lower(t), Lower(b));
  }

  /** `sub` occurs in `s` at offset `k`. */
  ghost predicate OccursAt(sub: string, s: string, k: int) {
    0 <= k && k + |sub| <= |s| && s[k..k + |sub|] == sub
  }

  ghost predicate IsInfix(sub: string, s: string) {
    exists k :: OccursAt(sub, s, k)
  }

  /** `s.includes(sub)` restricted to offsets from `k` on. */
  function ContainsFrom(s: string, sub: string, k: nat): bool
    requires k <= |s|
    decreases |s| - k
  {
    if k + |sub| > |s| then false
    else if s[k..k + |sub|] == sub then true
    else ContainsFrom(s, sub, k + 1)
  }

  lemma {:induction false} ContainsFromSpec(s: string, sub: string, k: nat)
    requires k <= |s|
    ensures ContainsFrom(s, sub, k) <==> exists m :: k <= m && OccursAt(sub, s, m)
    decreases |s| - k
  {
    if k + |sub| > |s| {
    } else if s[k..k + |sub|] == sub {
      assert OccursAt(sub, s, k);
    } else {
      ContainsFromSpec(s, sub, k + 1);
    }
  }

  /** `s.includes(sub)`. */
  function Contains(s: string, sub: string): bool {
    ContainsFrom(s, sub, 0)
  }

  /** Contains is exactly the substring relation. */
  lemma ContainsSpec(s: string, sub: string)
    ensures Contains(s, sub) <==> IsInfix(sub, s)
  {
    ContainsFromSpec(s, sub, 0);
  }

  /** An infix of a piece is an infix of any string built around that piece. */
  lemma InfixOfConcat(sub: string, p: string, s: string, q: string)
    requires IsInfix(sub, s)
    ensures IsInfix(sub, p + s + q)
  {
    var k :| OccursAt(sub, s, k);
    var t := p + s + q;
    assert t[|p| + k..|p| + k + |sub|] == s[k..k + |sub|];
    assert OccursAt(sub, t, |p| + k);
  }

  lemma InfixOfSelf(s: string)
    ensures IsInfix(s, s)
  {
    assert OccursAt(s, s, 0);
  }

  /** Appending on the right keeps an occurrence where it was. */
  lemma OccursAtAppend(sub: string, s: string, k: int, q: string)
    requires OccursAt(sub, s, k)
    ensures OccursAt(sub, s + q, k)
  {
    assert (s + q)[k..k + |sub|] == s[k..k + |sub|];
  }

  /** A string occurs right after whatever precedes it. */
  lemma OccursAfter(p: string, s: string)
    ensures OccursAt(s, p + s, |p|)
  {
    assert (p + s)[|p|..|p| + |s|] == s;
  }

  /** Where each of five consecutive pieces starts. */
  lemma PartsAt(r: string, a: string, b: string, c: string, d: string)
    ensures OccursAt(a, r + a + b + c + d, |r|)
    ensures OccursAt(b, r + a + b + c + d, |r| + |a|)
    ensures OccursAt(c, r + a + b + c + d, |r| + |a| + |b|)
    ensures OccursAt(d, r + a + b + c + d, |r| + |a| + |b| + |c|)
  {
    OccursAfter(r, a);
    OccursAtAppend(a, r + a, |r|, b);
    OccursAtAppend(a, r + a + b, |r|, c);
    OccursAtAppend(a, r + a + b + c, |r|, d);
    OccursAfter(r + a, b);
    OccursAtAppend(b, r + a + b, |r| + |a|, c);
    OccursAtAppend(b, r + a + b + c, |r| + |a|, d);
    OccursAfter(r + a + b, c);
    OccursAtAppend(c, r + a + b + c, |r| + |a| + |b|, d);
    OccursAfter(r + a + b + c, d);
  }

  lemma InfixAppend(sub: string, s: string, q: string)
    requires IsInfix(sub, s)
    ensures IsInfix(sub, s + q)
  {
    var k :| OccursAt(sub, s, k);
    OccursAtAppend(sub, s, k, q);
  }

  lemma InfixPrepend(sub: string, p: string, s: string)
    requires IsInfix(sub, s)
    ensures IsInfix(sub, p + s)
  {
    InfixOfConcat(sub, p, s, "");
    assert p + s + "" == p + s;
  }

  /** `xs.join(sep)`. */
  function Join(xs: seq<string>, sep: string): string
  {
    if |xs| == 0 then ""
    else if |xs| == 1 then xs[0]
    else xs[0] + sep + Join(xs[1..], sep)
  }

  /** Every joined item appears in the joined string. */
  lemma {:induction false} JoinMentionsEach(xs: seq<string>, sep: string, i: nat)
    requires i < |xs|
    ensures IsInfix(xs[i], Join(xs, sep))
    decreases i
  {
    if i == 0 {
      InfixOfSelf(xs[0]);
      if |xs| > 1 {
        InfixOfConcat(xs[0], "", xs[0], sep + Join(xs[1..], sep));
        assert "" + xs[0] + (sep + Join(xs[1..], sep)) == Join(xs, sep);
      } else {
        assert Join(xs, sep) == xs[0];
      }
    } else {
      JoinMentionsEach(xs[1..], sep, i - 1);
      InfixOfConcat(xs[i], xs[0] + sep, Join(xs[1..], sep), "");
      assert xs[0] + sep + Join(xs[1..], sep) + "" == Join(xs, sep);
    }
  }

  lemma JoinCons(x: string, xs: seq<string>, sep: string)
    ensures Join([x] + xs, sep) == if xs == [] then x else x + sep + Join(xs, sep)
  {
    assert ([x] + xs)[1..] == xs;
  }

  /** Joining two non-empty lists is joining each and putting one separator
      between the results. */
  lemma {:induction false} JoinAppend(xs: seq<string>, ys: seq<string>, sep: string)
    requires |xs| >= 1 && |ys| >= 1
    ensures Join(xs + ys, sep) == Join(xs, sep) + sep + Join(ys, sep)
    decreases |xs|
  {
    if |xs| == 1 {
      JoinCons(xs[0], ys, sep);
      assert xs + ys == [xs[0]] + ys;
    } else {
      JoinAppend(xs[1..], ys, sep);
      assert (xs + ys)[1..] == xs[1..] + ys;
    }
  }

  /** A character absent from `s` is absent from `Trim(s)`. */
  lemma TrimKeepsAbsent(s: string, c: char)
    requires c !in s
    ensures c !in Trim(s)
  {
    TrimSpec(s);
    var i, j :| 0 <= i <= j <= |s| && Trim(s) == s[i..j] && AllWhitespace(s[..i]) && AllWhitespace(s[j..]);
    assert forall m :: 0 <= m < j - i ==> s[i..j][m] == s[i + m];
  }

  /** `s.split(sep)` for a one-character separator: the pieces between
      consecutive separators, always at least one. */
  function Split(s: string, sep: char): (r: seq<string>)
    ensures |r| >= 1
    ensures forall i :: 0 <= i < |r| ==> sep !in r[i]
    ensures Join(r, [sep]) == s
    decreases |s|
  {
    if s == [] then [""]
    else
      var rest := Split(s[1..], sep);
      if s[0] == sep then
        JoinCons("", rest, [sep]);
        [""] + rest
      else
        JoinCons([s[0]] + rest[0], rest[1..], [sep]);
        JoinCons(rest[0], rest[1..], [sep]);
        assert rest == [rest[0]] + rest[1..];
        [[s[0]] + rest[0]] + rest[1..]
  }

  lemma {:induction false} SplitOfSeparatorFree(a: string, sep: char)
    requires sep !in a
    ensures Split(a, sep) == [a]
    decreases |a|
  {
    if a != [] {
      SplitOfSeparatorFree(a[1..], sep);
      assert [a[0]] + a[1..] == a;
    }
  }

  lemma {:induction false} SplitAtFirstSeparator(a: string, rest: string, sep: char)
    requires sep !in a
    ensures Split(a + [sep] + rest, sep) == [a] + Split(rest, sep)
    decreases |a|
  {
    var s := a + [sep] + rest;
    if a == [] {
      assert s[1..] == rest;
    } else {
      assert s[1..] == a[1..] + [sep] + rest;
      SplitAtFirstSeparator(a[1..], rest, sep);
      assert [a[0]] + a[1..] == a;
    }
  }

  /** Split undoes Join: separator-free pieces joined with the separator split
      back into the same pieces. Together with Split's own contract, the two are
      inverse bijections. */
  lemma {:induction false} SplitJoin(xs: seq<string>, sep: char)
    requires |xs| >= 1
    requires forall i :: 0 <= i < |xs| ==> sep !in xs[i]
    ensures Split(Join(xs, [sep]), sep) == xs
    decreases |xs|
  {
    if |xs| == 1 {
      SplitOfSeparatorFree(xs[0], sep);
    } else {
      SplitJoin(xs[1..], sep);
      SplitAtFirstSeparator(xs[0], Join(xs[1..], [sep]), sep);
      assert [xs[0]] + xs[1..] == xs;
    }
  }

  function DigitChar(d: nat): char
    requires d < 10
  {
    "0123456789"[d]
  }

  predicate IsDigit(c: char) {
    '0' <= c <= '9'
  }

  /** The number a string of decimal digits denotes. */
  function DecimalValue(s: string): int
    requires forall i :: 0 <= i < |s| ==> IsDigit(s[i])
  {
    if s == [] then 0
    else DecimalValue(s[..|s| - 1]) * 10 + (s[|s| - 1] as int - '0' as int)
  }

  /** The decimal rendering of a natural number: digits only, no leading zero,
      and reading it back gives the number. */
  function NatToString(n: nat): (r: string)
    ensures |r| >= 1
  {
    if n < 10 then [DigitChar(n)] else NatToString(n / 10) + [DigitChar(n % 10)]
  }

  /** NatToString writes decimal digits, with no leading zero, whose value
      is `n`: it inverts DecimalValue. */
  lemma {:induction false} NatToStringSpec(n: nat)
    ensures forall i :: 0 <= i < |NatToString(n)| ==> IsDigit(NatToString(n)[i])
    ensures |NatToString(n)| > 1 ==> NatToString(n)[0] != '0'
    ensures DecimalValue(NatToString(n)) == n
  {
    if n >= 10 {
      var prefix := NatToString(n / 10);
      NatToStringSpec(n / 10);
      var r := prefix + [DigitChar(n % 10)];
      assert r[..|r| - 1] == prefix;
    }
  }

  /** `${n}` for an integer `n`. */
  function IntToString(n: int): string {
    if n < 0 then "-" + NatToString(-n) else NatToString(n)
  }
}

=== FILE: tour.dfy ===
/** The guided tour behind "Show Visual Demo": the steps are split at the
    first click; that click is shown at once, anchored on the current page,
    and the rest wait until the route changes, when they are anchored on the
    new page. The tour is the state `{joySteps, runJoyride,
    pendingSecondPhase}` and three events act on it. */
module Tour {
  import opened Options
  import opened Seqs
  import opened Text
  import opened StepParser
  import opened Page

  /** Where a tour step points: the element a lookup found, or the page body
      when it found none. */
  datatype Target = Node(index: nat) | Body

  datatype JoyStep = JoyStep(target: Target, content: string)

  /** The statuses the tour library reports to its callback. */
  datatype Status = Idle | Ready | Waiting | Running | Paused | Skipped | Finished | Error

  /** `joySteps`, `runJoyride` and `pendingSecondPhase`. */
  datatype TourState = TourState(joySteps: seq<JoyStep>, run: bool, pending: seq<Step>)

  /** `el || "body"`. */
  function TargetOf(found: Option<nat>): Target {
    match found
    case Some(i) => Node(i)
    case None => Body
  }

  predicate IsClick(st: Step) {
    st.action == Click
  }

  /** A step the second phase can show: a click or a fill. */
  predicate IsActionable(st: Step) {
    st.action == Click || st.action == Fill
  }

  function ActionableCount(steps: seq<Step>): nat {
    if steps == [] then 0 else (if IsActionable(steps[0]) then 1 else 0) + ActionableCount(steps[1..])
  }

  /** The `forEach` that splits the steps, given whether a click was already
      taken: the first click goes to the first phase (`preNav`), every other
      step, before or after it, to the second (`postNav`). */
  function PartitionFrom(steps: seq<Step>, navFound: bool): (r: (seq<Step>, seq<Step>))
    ensures |r.0| + |r.1| == |steps|
    ensures r.0 == [] || (|r.0| == 1 && IsClick(r.0[0]))
    ensures navFound ==> r.0 == []
    ensures !navFound ==> (r.0 == [] <==> FirstIndex(IsClick, steps).None?)
    decreases |steps|
  {
    if steps == [] then ([], [])
    else
      var rest := PartitionFrom(steps[1..], navFound || IsClick(steps[0]));
      if !navFound && IsClick(steps[0]) then ([steps[0]] + rest.0, rest.1)
      else (rest.0, [steps[0]] + rest.1)
  }

  /** The split `startVisualDemo` makes: at most one step, a click, goes
      first, and it is there exactly when the steps contain a click. */
  function Partition(steps: seq<Step>): (r: (seq<Step>, seq<Step>))
    ensures |r.0| + |r.1| == |steps|
    ensures r.0 == [] || (|r.0| == 1 && IsClick(r.0[0]))
    ensures r.0 == [] <==> FirstIndex(IsClick, steps).None?
  {
    PartitionFrom(steps, false)
  }

  /** Once a click has been taken, everything goes to the second phase. */
  lemma {:induction false} PartitionAfterFound(steps: seq<Step>)
    ensures PartitionFrom(steps, true) == ([], steps)
    decreases |steps|
  {
    if steps != [] {
      PartitionAfterFound(steps[1..]);
      assert [steps[0]] + steps[1..] == steps;
    }
  }

  /** The split against an independent description: with no click at all the
      first phase is empty and the second holds every step; otherwise the
      first phase is the first click alone and the second is every other
      step, in the original order. */
  lemma {:induction false} PartitionSpec(steps: seq<Step>)
    ensures Partition(steps) ==
      match FirstIndex(IsClick, steps)
      case None => ([], steps)
      case Some(k) => ([steps[k]], steps[..k] + steps[k + 1..])
    decreases |steps|
  {
    if steps != [] {
      var tail := steps[1..];
      if IsClick(steps[0]) {
        PartitionClickFirst(steps);
      } else {
        PartitionSpec(tail);
        PartitionSkip(steps);
        match FirstIndex(IsClick, tail)
        case None =>
          assert [steps[0]] + tail == steps;
        case Some(i) =>
          assert FirstIndex(IsClick, steps) == Some(i + 1);
          SliceAroundCons(steps, i);
      }
    }
  }

  lemma PartitionClickFirst(steps: seq<Step>)
    requires steps != [] && IsClick(steps[0])
    ensures FirstIndex(IsClick, steps) == Some(0)
    ensures Partition(steps) == ([steps[0]], steps[..0] + steps[1..])
  {
    PartitionAfterFound(steps[1..]);
    assert steps[..0] + steps[1..] == steps[1..];
    assert [steps[0]] + [] == [steps[0]];
  }

  lemma PartitionSkip(steps: seq<Step>)
    requires steps != [] && !IsClick(steps[0])
    ensures Partition(steps) == (Partition(steps[1..]).0, [steps[0]] + Partition(steps[1..]).1)
  {
  }

  /** Removing position `i + 1` from `s` is keeping `s[0]` and removing
      position `i` from the tail. */
  lemma SliceAroundCons(s: seq<Step>, i: nat)
    requires i + 1 < |s|
    ensures [s[0]] + (s[1..][..i] + s[1..][i + 1..]) == s[..i + 1] + s[i + 2..]
  {
    var tail := s[1..];
    assert s[..i + 1] == [s[0]] + tail[..i];
    assert s[i + 2..] == tail[i + 1..];
    AppendAssoc([s[0]], tail[..i], tail[i + 1..]);
  }

  /** The first phase's step for a click: anchored on the button with that
      text, announcing the step's own number. */
  function FirstPhaseStep(st: Step, page: Page): JoyStep {
    JoyStep(TargetOf(FindButtonByText(page, st.targetText)), FirstPhaseContent(st))
  }

  function FirstPhaseContent(st: Step): string {
    "Step " + IntToString(st.step) + ": Click '" + st.targetText + "'"
  }

  function FirstPhase(pre: seq<Step>, page: Page): (r: seq<JoyStep>)
    ensures |r| == |pre|
  {
    if pre == [] then [] else [FirstPhaseStep(pre[0], page)] + FirstPhase(pre[1..], page)
  }

  /** The second phase's step for a fill (anchored on its label) or a click
      (anchored on its button); any other action is dropped. */
  function SecondPhaseStep(st: Step, page: Page): Option<JoyStep> {
    match st.action
    case Fill => Some(JoyStep(TargetOf(FindFieldByLabel(page, st.targetLabel)), "Fill '" + st.targetLabel + "'"))
    case Click => Some(JoyStep(TargetOf(FindButtonByText(page, st.targetText)), "Click '" + st.targetText + "'"))
    case OtherAction(_) => None
  }

  /** Where a tour step points and what it says. A click points at the first
      button matching its text and falls back to the page body exactly when
      no button matches; a fill does the same with the first matching label.
      The first phase and the deferred phase anchor a click the same way and
      differ only in the announcement; other actions give no tour step. */
  lemma TourStepAnchors(st: Step, page: Page)
    ensures FirstPhaseStep(st, page).target == Body <==>
      forall j :: 0 <= j < |page.elements| ==> !ButtonMatches(page.elements[j], st.targetText)
    ensures FirstPhaseStep(st, page).target.Node? ==>
      && FirstPhaseStep(st, page).target.index < |page.elements|
      && ButtonMatches(page.elements[FirstPhaseStep(st, page).target.index], st.targetText)
      && forall j :: 0 <= j < FirstPhaseStep(st, page).target.index ==> !ButtonMatches(page.elements[j], st.targetText)
    ensures st.action == Click ==>
      SecondPhaseStep(st, page) == Some(JoyStep(FirstPhaseStep(st, page).target, "Click '" + st.targetText + "'"))
    ensures st.action == Fill ==>
      && SecondPhaseStep(st, page).Some?
      && SecondPhaseStep(st, page).value.content == "Fill '" + st.targetLabel + "'"
      && (SecondPhaseStep(st, page).value.target == Body <==>
          forall j :: 0 <= j < |page.elements| ==> !LabelMatches(page.elements[j], st.targetLabel))
    ensures st.action == Fill && SecondPhaseStep(st, page).value.target.Node? ==>
      && SecondPhaseStep(st, page).value.target.index < |page.elements|
      && LabelMatches(page.elements[SecondPhaseStep(st, page).value.target.index], st.targetLabel)
      && forall j :: 0 <= j < SecondPhaseStep(st, page).value.target.index ==> !LabelMatches(page.elements[j], st.targetLabel)
    ensures st.action.OtherAction? ==> SecondPhaseStep(st, page).None?
  {
    FindButtonByTextSpec(page, st.targetText);
    FindFieldByLabelSpec(page, st.targetLabel);
  }

  /** A click on a button text the snapshot advertised is anchored on an
      element of the page, never on the body. */
  lemma AdvertisedClickAnchored(st: Step, page: Page)
    requires st.targetText in ExtractUIMetadata(page).textButtons
    ensures FirstPhaseStep(st, page).target.Node?
    ensures st.action == Click ==> SecondPhaseStep(st, page).value.target.Node?
  {
    AdvertisedButtonResolves(page, st.targetText);
  }

  /** The deferred phase: one tour step per pending click or fill, in order;
      other actions are dropped. */
  function SecondPhase(pending: seq<Step>, page: Page): (r: seq<JoyStep>)
    ensures |r| == ActionableCount(pending)
    ensures |r| <= |pending|
  {
    if pending == [] then []
    else
      match SecondPhaseStep(pending[0], page)
      case Some(j) => [j] + SecondPhase(pending[1..], page)
      case None => SecondPhase(pending[1..], page)
  }

  /** `startVisualDemo(steps)`: the whole tour state is replaced; the tour runs
      the first phase and keeps the rest pending. */
  function StartVisualDemo(steps: seq<Step>, page: Page): (r: TourState)
    ensures r.run
    ensures |r.joySteps| + |r.pending| == |steps|
  {
    var (pre, post) := Partition(steps);
    TourState(FirstPhase(pre, page), true, post)
  }

  /** The effect on `window.location.pathname`: pending steps become the new
      tour, anchored on the page now shown, and nothing stays pending. With
      nothing pending the state is left alone. */
  function OnRouteChange(s: TourState, page: Page): (r: TourState)
    ensures r.pending == []
    ensures s.pending != [] ==> r.run
    ensures s.pending == [] ==> r == s
  {
    if |s.pending| > 0 then TourState(SecondPhase(s.pending, page), true, [])
    else s
  }

  /** The tour library's callback: finishing or skipping stops the tour;
      nothing else changes, and no other status has any effect. */
  function OnJoyrideCallback(s: TourState, status: Status): (r: TourState)
    ensures r.joySteps == s.joySteps && r.pending == s.pending
    ensures r.run <==> s.run && status != Finished && status != Skipped
  {
    if status == Finished || status == Skipped then s.(run := false) else s
  }

  /** What a demo shows first: exactly one step when the steps contain a
      click — the first click, under its own number — and none otherwise;
      everything else is pending. */
  lemma DemoFirstPhase(steps: seq<Step>, page: Page)
    ensures var r := StartVisualDemo(steps, page);
      match FirstIndex(IsClick, steps)
      case None => r.joySteps == [] && r.pending == steps
      case Some(k) =>
        && r.joySteps == [FirstPhaseStep(steps[k], page)]
        && r.pending == steps[..k] + steps[k + 1..]
  {
    PartitionSpec(steps);
    match FirstIndex(IsClick, steps)
    case None =>
    case Some(k) =>
      assert FirstPhase([steps[k]], page) == [FirstPhaseStep(steps[k], page)];
  }

  /** A demo of fills only shows nothing until the route changes. */
  lemma FillsOnlyWaitForNavigation(steps: seq<Step>, page: Page)
    requires forall i :: 0 <= i < |steps| ==> steps[i].action == Fill
    ensures StartVisualDemo(steps, page) == TourState([], true, steps)
  {
    DemoFirstPhase(steps, page);
  }

  lemma {:induction false} ActionableCountAppend(a: seq<Step>, b: seq<Step>)
    ensures ActionableCount(a + b) == ActionableCount(a) + ActionableCount(b)
    decreases |a|
  {
    if a == [] {
      assert a + b == b;
    } else {
      assert (a + b)[1..] == a[1..] + b;
      ActionableCountAppend(a[1..], b);
    }
  }

  /** The deferred phase against the `map` + `filter(Boolean)` pipeline it
      implements: it is `SecondPhaseStep` applied to every pending step,
      with the dropped ones filtered out. */
  lemma {:induction false} SecondPhaseIsFilterMap(pending: seq<Step>, page: Page)
    ensures SecondPhase(pending, page) == FilterMap((st: Step) => SecondPhaseStep(st, page), pending)
    decreases |pending|
  {
    if pending != [] {
      SecondPhaseIsFilterMap(pending[1..], page);
    }
  }

  /** The deferred phase follows the order of the pending steps: the steps
      of two runs are the first run's followed by the second's. */
  lemma SecondPhaseAppend(a: seq<Step>, b: seq<Step>, page: Page)
    ensures SecondPhase(a + b, page) == SecondPhase(a, page) + SecondPhase(b, page)
  {
    var f := (st: Step) => SecondPhaseStep(st, page);
    SecondPhaseIsFilterMap(a + b, page);
    SecondPhaseIsFilterMap(a, page);
    SecondPhaseIsFilterMap(b, page);
    FilterMapAppend(f, a, b);
  }

  /** When every pending step is a click or a fill, the second phase keeps
      them all, in order: its `k`-th step is the `k`-th pending step's. */
  lemma {:induction false} SecondPhaseOfActionable(pending: seq<Step>, page: Page, k: nat)
    requires forall i :: 0 <= i < |pending| ==> IsActionable(pending[i])
    requires k < |pending|
    ensures |SecondPhase(pending, page)| == |pending|
    ensures SecondPhaseStep(pending[k], page).Some?
    ensures SecondPhase(pending, page)[k] == SecondPhaseStep(pending[k], page).value
    decreases |pending|
  {
    ActionableAll(pending);
    var tail := pending[1..];
    assert IsActionable(pending[0]);
    assert SecondPhase(pending, page) == [SecondPhaseStep(pending[0], page).value] + SecondPhase(tail, page);
    if k > 0 {
      assert forall i :: 0 <= i < |tail| ==> tail[i] == pending[i + 1];
      assert pending[k] == tail[k - 1];
      SecondPhaseOfActionable(tail, page, k - 1);
    }
  }

  lemma {:induction false} ActionableAll(steps: seq<Step>)
    requires forall i :: 0 <= i < |steps| ==> IsActionable(steps[i])
    ensures ActionableCount(steps) == |steps|
    decreases |steps|
  {
    if steps != [] {
      assert forall i :: 0 <= i < |steps[1..]| ==> steps[1..][i] == steps[i + 1];
      ActionableAll(steps[1..]);
    }
  }

  /** Taking one step out of a list lowers the count by that step's share. */
  lemma ActionableCountRemove(steps: seq<Step>, k: nat)
    requires k < |steps|
    ensures ActionableCount(steps) ==
      ActionableCount(steps[..k] + steps[k + 1..]) + (if IsActionable(steps[k]) then 1 else 0)
  {
    SpliceAt(steps, k);
    ActionableCountSplice(steps[..k], steps[k], steps[k + 1..]);
  }

  lemma ActionableCountSplice(a: seq<Step>, x: Step, b: seq<Step>)
    ensures ActionableCount(a + [x] + b) ==
      ActionableCount(a + b) + (if IsActionable(x) then 1 else 0)
  {
    ActionableCountAppend(a + [x], b);
    ActionableCountAppend(a, [x]);
    ActionableCountAppend(a, b);
    assert [x][1..] == [];
  }

  /** Across the two phases a demo shows every click and fill exactly once,
      provided the route changes while steps are pending; other actions are
      never shown. The first click is shown first, on the first page; the
      route change then shows the steps before it and after it, in their
      order, anchored on the new page. */
  lemma DemoShowsEachActionOnce(steps: seq<Step>, first: Page, next: Page)
    ensures var s1 := StartVisualDemo(steps, first);
      var s2 := OnRouteChange(s1, next);
      |s1.joySteps| + (if s1.pending == [] then 0 else |s2.joySteps|) == ActionableCount(steps)
    ensures var s1 := StartVisualDemo(steps, first);
      var s2 := OnRouteChange(s1, next);
      s1.pending != [] ==>
        match FirstIndex(IsClick, steps)
        case None => s2.joySteps == SecondPhase(steps, next)
        case Some(k) =>
          && s1.joySteps == [FirstPhaseStep(steps[k], first)]
          && s2.joySteps == SecondPhase(steps[..k], next) + SecondPhase(steps[k + 1..], next)
  {
    var s1 := StartVisualDemo(steps, first);
    DemoFirstPhase(steps, first);
    if s1.pending != [] {
      assert OnRouteChange(s1, next).joySteps == SecondPhase(s1.pending, next);
    }
    match FirstIndex(IsClick, steps)
    case None =>
    case Some(k) =>
      ActionableCountRemove(steps, k);
      SecondPhaseAppend(steps[..k], steps[k + 1..], next);
  }

  /** A second route change without a new demo leaves the tour alone. */
  lemma RouteChangeIdempotent(s: TourState, p1: Page, p2: Page)
    ensures OnRouteChange(OnRouteChange(s, p1), p2) == OnRouteChange(s, p1)
  {
  }

  /** Finishing or skipping the first phase does not cancel the second:
      the pending steps still appear at the next route change. */
  lemma FinishKeepsSecondPhase(steps: seq<Step>, first: Page, next: Page)
    requires StartVisualDemo(steps, first).pending != []
    ensures var s := OnJoyrideCallback(StartVisualDemo(steps, first), Finished);
      && !s.run
      && OnRouteChange(s, next).run
      && OnRouteChange(s, next).joySteps == SecondPhase(StartVisualDemo(steps, first).pending, next)
  {
  }

  /** On a page with no elements every lookup falls back to the body. */
  lemma EmptyPageHasNoTargets(path: string, text: string)
    ensures FindButtonByText(Page(path, []), text) == None
    ensures FindFieldByLabel(Page(path, []), text) == None
  {
  }

  /** How the first phase announces a click: by its own step number. */
  lemma FirstPhaseAnnouncement()
    ensures FirstPhaseContent(Step(2, Click, "Save", "")) == "Step 2: Click 'Save'"
  {
    assert IntToString(2) == "2";
  }

  /** A fill before the first click waits for the second phase: for fill
      "Email", click "Save", click "Confirm" on a page without a Save button
      the tour first shows the Save click on the page body, and keeps the fill
      and the second click pending, in their order. */
  lemma FillBeforeClickIsDeferred()
    ensures var steps := [Step(1, Fill, "", "Email"), Step(2, Click, "Save", ""), Step(3, Click, "Confirm", "")];
      var r := StartVisualDemo(steps, Page("/", []));
      && r.joySteps == [FirstPhaseStep(steps[1], Page("/", []))]
      && r.joySteps[0].target == Body
      && r.pending == [steps[0], steps[2]]
  {
    var steps := [Step(1, Fill, "", "Email"), Step(2, Click, "Save", ""), Step(3, Click, "Confirm", "")];
    var page := Page("/", []);
    FirstIndexIs(IsClick, steps, 1);
    DemoFirstPhase(steps, page);
    EmptyPageHasNoTargets("/", "Save");
    assert steps[..1] + steps[2..] == [steps[0], steps[2]];
  }
}
